=== FILE: README.md ===
# Clínica oral CLM — a Dafny model of the route logic

The application is a course-support site. Teachers publish practice
activities. Students upload audio or video recordings for those activities,
and teachers return feedback. Students enrol with single-use access codes.

This project models the logic in the route handlers, the auth callbacks and
the request middleware. The model is one state machine over an immutable
store (`Store.Store`). The store holds users keyed by e-mail, access codes
keyed by code, and activities, submissions and feedback keyed by id. Ids come
from a shared counter. Every request is a pure function
`(store, request, now, outside answers) -> (reply, store')`.

- `common.dfy`: options, route outcomes, JavaScript truthiness of request
  fields, roles, and ASCII lower-casing.
- `store.dfy`: the rows, the store, and the store invariant `Valid`. It has
  four parts: users, the access-code ledger, the submissions unique index
  (`slots`, the `(studentId, activityId)` key), and row references.
- `guard.dfy` (`RouteGuard`): the middleware decision and the dashboard
  redirect.
- `ledger.dfy` (`Ledger`): the ordered access-code check and single-use
  redemption. The registration route and the OAuth `signIn` callback share
  them.
- `auth.dfy` (`Auth`): `authorize`, `signIn`, `jwt`, `session` and the
  login route.
- `register.dfy` (`Registration`): the registration route. It also holds the
  finding below.
- `submissions.dfy` (`Submissions`): listing newest first, the upsert into a
  student's slot for an activity, and media-kind derivation.
- `feedback.dfy` (`FeedbackRoute`), `activities.dfy` (`ActivityRoute`),
  `accesscodes.dfy` (`AccessCodes`): the remaining teacher routes.
- `server.dfy` (`Server`): the requests that reach the store, as written, as
  one `Step`. These are registration, the OAuth `signIn`, login, listing,
  submission, feedback, activity creation and access-code creation. The proof
  shows that `Valid` holds across every step and across any run of steps. The
  guard, the dashboard redirect and the credentials callbacks (`authorize`,
  `jwt`, `session`) are pure decisions outside `Step`.

Opaque collaborators are parameters:
- bcrypt `hash` and `compare` are functions.
- The token verifier is `string -> Option<Principal>`.
- The media host's answer is an `UploadOutcome` value.
- The clock is `now` in milliseconds, plus the calendar `year`.
- `randomBytes(4)` is a finite sequence of 4-byte draws.

A few behaviours of the code that are easy to overlook:
- An unknown, used or expired access code gets 400.
- Feedback ratings are stored as sent, with no range check.
- Redeeming a code is a read followed by a write, not a conditional update.
- No route in these files derives a role from the e-mail domain. Registration
  always creates a `STUDENT`.

## Model

| member | source | states |
|---|---|---|
| RouteGuard.Middleware | src/middleware.ts:4-35 | A redirect goes only to sign-in or to one of the two homes. A request is sent to sign-in exactly when its path is not public and it has no session. |
| RouteGuard.PublicPathsIgnoreSession | src/middleware.ts:8-16 | `/`, `/auth/signin`, `/api/auth/…` and `/api/submissions…` pass, and the answer is the same whatever the session holds. |
| RouteGuard.AnonymousRedirectedToSignIn | src/middleware.ts:18-24 | Every non-public path with no user redirects to `/auth/signin`. |
| RouteGuard.RegisterPageNotPublic | src/middleware.ts:8-24 | `/auth/register` is not public, so an anonymous visitor is sent to sign-in. |
| RouteGuard.SubtreesNotPublic | src/middleware.ts:8-32 | No path under `/profesor` or `/estudiante` is public. |
| RouteGuard.WrongRoleRedirected | src/middleware.ts:27-32 | Under `/profesor`, a role other than TEACHER goes to `/estudiante`. Under `/estudiante`, a role other than STUDENT goes to `/profesor`. |
| RouteGuard.MatchingRolePasses | src/middleware.ts:26-34 | A signed-in request whose role matches its subtree, or that is outside both subtrees, passes. |
| RouteGuard.NoRedirectLoop | src/middleware.ts:27-34 | For TEACHER and STUDENT, the target of a role redirect passes the guard for the same user. |
| RouteGuard.OtherRoleBounces | src/middleware.ts:27-32 | Any other role string is redirected back and forth between the two homes. |
| RouteGuard.Dashboard | src/app/dashboard/page.tsx:5-25 | A missing or unverifiable token goes to sign-in. A verified TEACHER goes to `/profesor`. Every other verified role goes to `/estudiante`. |
| RouteGuard.DashboardTargetPasses | src/app/dashboard/page.tsx:19-24 | For a verified TEACHER or STUDENT, the dashboard's target passes the middleware for that user. |
| Ledger.CheckCode | src/app/api/auth/register/route.ts:36-66 | A code is accepted exactly when it is present, known, unused and not expired. Errors come in that order: required, invalid, used, expired. |
| Ledger.Redeem | src/app/api/auth/register/route.ts:83-89 | The code becomes used, with `usedBy` set to the address. Its expiry and every other code stay the same. |
| Ledger.RedeemedCodeIsUsed | src/app/api/auth/register/route.ts:54-59 | After redemption, the code is rejected as used at any later time. |
| Ledger.ExpiryBoundaryAccepted | src/app/api/auth/register/route.ts:61 | An expiry equal to `now` is accepted. One millisecond later the code is rejected as expired. |
| Ledger.UsedBeforeExpired | src/app/api/auth/register/route.ts:54-66 | A code that is both used and expired is reported as used. |
| Ledger.RedeemKeepsLedger | src/lib/auth.ts:112-118 | Redeeming an unused code for a new address keeps the ledger invariant. |
| Store.SlotUnique | src/app/api/submissions/route.ts:148-154 | On a consistent store, no two submissions share a `(student, activity)` pair. |
| Store.CodeHeldByOneUser | src/app/api/auth/register/route.ts:71-89 | On a consistent store, no access code is held by two users. |
| Registration.Register | src/app/api/auth/register/route.ts:5-98 | Errors come in this order: missing field (400), password under 6 (400), known e-mail (409), then the code errors (400). Every error leaves the store unchanged. On success exactly one STUDENT user is added holding the code, only that code is consumed by that address, and nothing else changes. |
| Registration.EmailCheckedBeforeCode | src/app/api/auth/register/route.ts:23-41 | A registered address gets 409 whatever the access code is. |
| Registration.RegisterPreservesValid | src/app/api/auth/register/route.ts:70-92 | Registration keeps the store invariant. |
| Registration.SecondRegistrationFails | src/app/api/auth/register/route.ts:54-59 | After a successful registration, another new address using the same code gets "already used". |
| Registration.ClinicaScenario | src/app/api/auth/register/route.ts:43-92 | The unused code CLINICA2024 admits ana@example.com as a STUDENT and is marked used by her. A second registration with the code is refused as used. |
| Registration.MixedCaseRegistrantCannotLogIn | src/app/api/auth/register/route.ts:24-26 | Registering `Ana@example.com` succeeds. The login route then refuses that address with the right password. |
| Registration.RegisterNormalized | src/app/api/auth/login/route.ts:20-22 | Registration with the address lower-cased stores the user under an address with no upper-case letters. |
| Registration.RegisterNormalizedThenLogin | src/app/api/auth/login/route.ts:20-52 | After the corrected registration, logging in with the same address in any case and the same password succeeds. The token names the new student. |
| Auth.Authorize | src/lib/auth.ts:22-46 | Missing e-mail or password is rejected as missing. Otherwise the call succeeds exactly when the user exists, has a stored password and the compare holds. The result is that user's id, e-mail, name and role. |
| Auth.SignIn | src/lib/auth.ts:73-121 | The credentials provider is always allowed. An existing user is allowed and nothing changes. A new user is refused with the first code error and nothing changes, or is allowed and the code is consumed by that address. |
| Auth.SignInPreservesValid | src/lib/auth.ts:112-118 | The sign-in callback keeps the store invariant. |
| Auth.SignInCodeSingleUse | src/lib/auth.ts:104-118 | After one new OAuth user consumes a code, the next new OAuth user with that code is refused with AccessCodeUsed. |
| Auth.Jwt | src/lib/auth.ts:123-143 | With no signing-in user the token is unchanged. A user carrying a role sets id and role, and `hasAccessCode` false. Otherwise the stored user sets id, role and whether they hold a code. An unknown user leaves the token unchanged. |
| Auth.Session | src/lib/auth.ts:145-152 | The callback copies the token's id into the session. The role and access-code flag come from the token with defaults (see `Auth.SessionDefaults`). The callback does not set the e-mail: it is the token's, filled in by the library's default session. |
| Auth.SessionDefaults | src/lib/auth.ts:148-149 | A missing role reads as STUDENT and a missing flag as false. Values that are present are kept. |
| Auth.CredentialsSession | src/lib/auth.ts:124-130 | After a credentials sign-in, the session has the stored user's id and role, with `hasAccessCode` false. |
| Auth.RolelessSignInSession | src/lib/auth.ts:131-139 | After a sign-in whose user object has no `role`, the session has the stored user's id and role, and whether they hold a code. |
| Auth.Login | src/app/api/auth/login/route.ts:8-74 | A missing field gets 400. Otherwise the call succeeds exactly when the lower-cased address is stored and, if a password is stored, the compare holds. An unknown user and a wrong password get the same 401 error. The token payload is exactly the user's id, e-mail and role. Token lifetime and cookie max-age are both 604800 seconds. |
| Auth.LoginIgnoresCase | src/app/api/auth/login/route.ts:20-22 | Logging in with an address and with its lower-case form gives the same result. |
| Auth.PasswordlessDivergence | src/app/api/auth/login/route.ts:31-40 | A user with no stored password is admitted by the login route with any password. `authorize` rejects the same user. |
| Common.ToLowerIdempotent | src/app/api/auth/login/route.ts:21 | Lower-casing twice is the same as lower-casing once. |
| Submissions.MediaTypeOf | src/app/api/submissions/route.ts:157 | A non-empty requested kind is kept. Otherwise the kind is `video` exactly for `video/…` MIME types, and `audio` for everything else. |
| Submissions.MediaAgreesWithResource | src/app/api/submissions/route.ts:119 | With no requested kind, the stored kind is `video` exactly when the upload's resource type is `video`, and `audio` exactly when it is `auto`. |
| Submissions.Upsert | src/app/api/submissions/route.ts:148-169 | Afterwards the slot exists and its row has the new URL, kind and notes, status PENDING and the new update time. No other table changes. |
| Submissions.UpsertOverwrites | src/app/api/submissions/route.ts:155-161 | A resubmission rewrites only that row's media, notes, status and update time. No row is added. |
| Submissions.UpsertCreates | src/app/api/submissions/route.ts:162-169 | A first submission adds exactly one PENDING row and its index entry. |
| Submissions.UpsertPreservesValid | src/app/api/submissions/route.ts:148-154 | The upsert keeps the unique index and the store invariant. |
| Submissions.PostSubmission | src/app/api/submissions/route.ts:71-187 | Checks run in this order: session (401), user (404), file (400), activity id (400), activity (404). A failed check attempts no upload. A passing request uploads with the resource type from the MIME type. A thrown upload or a missing URL gets 500 and writes nothing. Success upserts the caller's slot. |
| Submissions.ChecksPrecedeUpload | src/app/api/submissions/route.ts:75-138 | When a check fails, the reply and the store do not depend on what the media host would answer. |
| Submissions.PostSubmissionPreservesValid | src/app/api/submissions/route.ts:148-178 | Creating a submission keeps the store invariant. |
| Submissions.ResubmissionReplaces | src/app/api/submissions/route.ts:148-161 | Two successful submissions for one activity by one student use the same row. The second recording replaces the first. |
| Submissions.VisibleTo | src/app/api/submissions/route.ts:38-41 | A teacher sees every submission. A student sees exactly their own. |
| Submissions.InsertByDate | src/app/api/submissions/route.ts:57 | Inserting one row into a newest-first list keeps it newest first. The result is the old list plus that row. |
| Submissions.OrderNewestFirst | src/app/api/submissions/route.ts:57 | The result is a newest-first arrangement of exactly the given rows. |
| Submissions.ListSubmissions | src/app/api/submissions/route.ts:22-60 | No session gets 401 and an unknown user gets 404. A signed-in, known user always gets a listing. The listing is a newest-first permutation of exactly the submissions visible to that user. |
| Submissions.ListingIsExact | src/app/api/submissions/route.ts:40-58 | A listing holds every visible row exactly once and nothing else. |
| FeedbackRoute.ParseStatus | src/app/api/feedback/route.ts:46-49 | Exactly the names PENDING, REVIEWED and NEEDS_REVISION are accepted. Each one becomes the status of the same name. |
| FeedbackRoute.NewStatusDefault | src/app/api/feedback/route.ts:48 | With no status given, the submission becomes REVIEWED. |
| FeedbackRoute.PostFeedback | src/app/api/feedback/route.ts:6-53 | Errors come in this order: no session or not a TEACHER (401), missing submission or comment (400), unknown submission (404). Errors change nothing. Past those checks, a session without a user id or an unknown status name gets 500. The call succeeds exactly when all checks pass, the session carries a teacher id and the status name is accepted. Success adds exactly one feedback row by the session's teacher. Absent ratings stay absent. Only the reviewed submission's status changes. |
| FeedbackRoute.FeedbackAllOrNothing | src/app/api/feedback/route.ts:34-50 | Either the store is unchanged, or there is one more feedback row and its submission has the new status. |
| FeedbackRoute.PostFeedbackPreservesValid | src/app/api/feedback/route.ts:35-50 | Leaving feedback keeps the store invariant. |
| ActivityRoute.OrNull | src/app/api/activities/route.ts:34 | A falsy text field is stored as null. A truthy one is kept. |
| ActivityRoute.NewActivity | src/app/api/activities/route.ts:31-43 | `isPublished` is true only when true was sent. Description and instructions default to null. Empty or absent hints are not stored. `createdBy` is the creator. |
| ActivityRoute.PostActivity | src/app/api/activities/route.ts:6-46 | No session or not a TEACHER gets 401. A missing title, type or content gets 400. Past those checks, a session without a user id gets 500. Errors change nothing. The call succeeds exactly when all checks pass and the session carries an id. Success adds exactly one activity. |
| ActivityRoute.PostActivityPreservesValid | src/app/api/activities/route.ts:31-43 | Creating an activity adds one new row and keeps the store invariant. |
| AccessCodes.UnHexHex | src/app/api/access-codes/route.ts:7 | Upper-case hex encoding reads back to the original bytes. |
| AccessCodes.DecimalRoundTrip | src/app/api/access-codes/route.ts:8 | The year's decimal text reads back to the year. |
| AccessCodes.GenerateCode | src/app/api/access-codes/route.ts:6-9 | A code is `CLM-`, then the year's digits, then `-`, then 8 upper-case hex digits. |
| AccessCodes.ParseGenerate | src/app/api/access-codes/route.ts:6-9 | Every generated code parses back to its year and random bytes. |
| AccessCodes.GenerateInjective | src/app/api/access-codes/route.ts:7-8 | Different draws in the same year give different codes. |
| AccessCodes.EffectiveCount | src/app/api/access-codes/route.ts:18 | The batch size is in [1, 50]. A missing, zero or negative count gives 1. A count above 50 gives 50. A count in range is kept. |
| AccessCodes.SharedExpiry | src/app/api/access-codes/route.ts:21-23 | The expiry is absent exactly when `expirationDays` is falsy. Otherwise it is that many days after `now`. |
| AccessCodes.CreateAccessCodes | src/app/api/access-codes/route.ts:11-49 | A non-TEACHER caller gets 401 and nothing changes. A TEACHER is never refused as unauthorised. A TEACHER always succeeds when the random source has at least the clamped count of distinct draws whose codes are not already held. On success there are exactly as many codes as the clamped count. They are distinct, none was already held, and each has the generated form. Each is added unused with the batch's shared expiry. Existing codes and all other tables stay the same, and the ledger grows by exactly that many codes. |
| AccessCodes.NewCodesKeepLedger | src/app/api/access-codes/route.ts:38-43 | Adding unused codes keeps the store invariant. |
| Server.Step | src/lib/auth.ts:73-121 | The model's dispatcher over the store-touching routes. The cited lines are the sign-in callback, the only route that redirects; each other route's source is in its own row. Each request's reply and new store are exactly those of that route's member (`Server.RoutedAs`): `Registration.Register`, `Auth.SignIn`, `Auth.Login`, `Submissions.ListSubmissions` (401, 404 or 200), `Submissions.PostSubmission`, `FeedbackRoute.PostFeedback` and `ActivityRoute.PostActivity`. Code creation only adds codes; a non-TEACHER gets 401, and a 201 adds exactly the clamped count. Every step keeps the store invariant. Login and listing leave the store unchanged. Every status is one the routes send: 200, 201, 400, 401, 404, 409 or 500. A redirect comes only from the OAuth sign-in callback and leaves the store unchanged. |

`Server.Run` applies `Server.Step` to a sequence of requests and keeps
`Valid` across all of them.

## Findings

| source | as written | input that shows it | evidently intended | confidence | as-written member | corrected member |
|---|---|---|---|---|---|---|
| src/app/api/auth/register/route.ts:24-26 | Registration checks and stores the e-mail exactly as typed. The login route used by the sign-in page looks the user up by the lower-cased address (src/app/api/auth/login/route.ts:21). | Register `Ana@example.com` with a valid code and password `secreto1`, then log in with the same address and password: 401. | Addresses are stored lower-cased, so the login route finds every registered user. | medium (assumes the database compares e-mails case-sensitively); not executed | Registration.MixedCaseRegistrantCannotLogIn | Registration.RegisterNormalized |

`Server.Step` registers through `Registration.Register`, the code as written.
`Registration.RegisterNormalized` is the corrected route and is used only to
prove the intended login.

## Left out

- Database I/O. Prisma calls are replaced by map updates. Each `$transaction`
  is one atomic store update. A database refusal inside a route without a
  `try` is modelled as a 500 that leaves the store unchanged. Two cases are
  modelled this way: a session with no user id, and an unknown feedback
  status.
- Concurrency. Requests run one at a time. The check-then-update on access
  codes, in registration and in `signIn`, is not race-safe in the code, and
  the model makes no claim about concurrent requests.
- bcrypt, JWT signing and verification, and the token helpers
  `verifyAuth` and `getUserFromRequest`. These helpers are not part of this
  model. They appear as parameters, and a token appears as the payload it
  signs.
- The media host. Only its answer and the upload request are modelled: the
  resource type, the folder, the student, the activity and the time. The
  file bytes are not modelled.
- Clock and randomness. `now` and `year` are inputs. Deriving the year from
  the clock is not modelled. The random source is finite. Running out of
  draws gives the model-only error `Exhausted`; the code would keep drawing.
- AccessCodes.CreateAccessCodes: success for a TEACHER is promised only when
  the draws are distinct and none of their codes is held. A draw that repeats
  or hits a held code is skipped, as in the code. The contract does not count
  how many extra draws that needs.
- AccessCodes.EffectiveCount: integer counts only. A fractional or string
  count, which JavaScript would coerce or loop over differently, is not
  modelled.
- AccessCodes.SharedExpiry: integer day counts only. A fractional
  `expirationDays` is not modelled.
- Common.ToLowerIdempotent: lower-casing covers ASCII letters only. The
  code's `toLowerCase` covers all of Unicode.
- Registration.Register: the password length counts Unicode scalar values.
  JavaScript counts UTF-16 code units, so the two differ for characters
  outside the Basic Multilingual Plane.
- Request fields are modelled with their intended JSON types. An empty id
  field is folded into "absent". Error message texts are not modelled; only
  the error kinds and statuses are.
- Parsing the activity's `dueDate` into a date, and the database's check of
  the activity type enum. The Prisma schema is not part of this model, so
  both fields are stored as the strings sent.
- The relations joined into listing and upsert replies (student, activity,
  feedback with teacher), and the listing route's catch-all 500.
- Which `jwt` branch an OAuth sign-in takes. The callback tests only whether
  the user object has a `role`, and that object comes from the database
  adapter, which is not part of this model. `Auth.Jwt` covers both branches.
- User creation by the OAuth adapter after `signIn`, the `secure` cookie flag
  (it depends on the deployment environment), and the middleware's
  static-asset matcher.
- Role assignment from the e-mail domain. The routes in these files never
  do it.
- Logout, the seed script, the headers configuration, and all pages and
  components beyond the dashboard redirect. These are presentation or setup.

=== FILE: accesscodes.dfy ===
/** Teacher-side generation of enrollment codes
    (src/app/api/access-codes/route.ts): codes of the form
    CLM-<year>-<8 upper-case hex digits>, a clamped batch size, a retry loop
    that only keeps codes the ledger does not already hold, and one expiry
    shared by the batch. The random source is a finite sequence of 4-byte
    draws and the calendar year is an input. */
module AccessCodes {
  import opened Common
  import opened Store

  type Byte = b: int | 0 <= b < 256

  /** The output of one `randomBytes(4)` call. */
  type Draw = d: seq<Byte> | |d| == 4 witness [0, 0, 0, 0]

  // ------------------------------------------------------------ hex digits

  /** An upper-case hexadecimal digit, as `toUpperCase` leaves them. */
  predicate IsHexDigit(c: char)
  {
    '0' <= c <= '9' || 'A' <= c <= 'F'
  }

  function HexDigit(n: nat): (c: char)
    requires n < 16
    ensures IsHexDigit(c)
  {
    if n < 10 then ('0' as int + n) as char else ('A' as int + n - 10) as char
  }

  function HexValue(c: char): (v: Option<nat>)
    ensures v.Some? <==> IsHexDigit(c)
    ensures v.Some? ==> v.value < 16 && HexDigit(v.value) == c
  {
    if '0' <= c <= '9' then Some(c as int - '0' as int)
    else if 'A' <= c <= 'F' then Some(c as int - 'A' as int + 10)
    else None
  }

  lemma HexValueOfDigit(n: nat)
    requires n < 16
    ensures HexValue(HexDigit(n)) == Some(n)
  {
  }

  /** Upper-case hexadecimal, two digits per byte, most significant first. */
  function Hex(bs: seq<Byte>): (h: string)
    ensures |h| == 2 * |bs|
    ensures forall i :: 0 <= i < |h| ==> IsHexDigit(h[i])
  {
    if bs == [] then ""
    else [HexDigit(bs[0] / 16), HexDigit(bs[0] % 16)] + Hex(bs[1..])
  }

  /** Reads hexadecimal back; odd length or a non-digit gives `None`. */
  function UnHex(h: string): Option<seq<Byte>>
  {
    if |h| == 0 then Some([])
    else if |h| == 1 then None
    else
      match (HexValue(h[0]), HexValue(h[1]), UnHex(h[2..]))
      case (Some(hi), Some(lo), Some(rest)) => Some([hi * 16 + lo] + rest)
      case _ => None
  }

  lemma {:induction false} UnHexHex(bs: seq<Byte>)
    ensures UnHex(Hex(bs)) == Some(bs)
  {
    if bs != [] {
      var h := Hex(bs);
      assert h[2..] == Hex(bs[1..]);
      UnHexHex(bs[1..]);
      HexValueOfDigit(bs[0] / 16);
      HexValueOfDigit(bs[0] % 16);
      assert [bs[0]] + bs[1..] == bs;
    }
  }

  // -------------------------------------------------------- decimal digits

  predicate IsDigit(c: char)
  {
    '0' <= c <= '9'
  }

  function DigitChar(d: nat): (c: char)
    requires d < 10
    ensures IsDigit(c) && c as int - '0' as int == d
  {
    ('0' as int + d) as char
  }

  /** `Number.prototype.toString()` for a non-negative integer. */
  function Decimal(n: nat): (d: string)
    ensures |d| >= 1
    ensures forall i :: 0 <= i < |d| ==> IsDigit(d[i])
  {
    if n < 10 then [DigitChar(n)] else Decimal(n / 10) + [DigitChar(n % 10)]
  }

  function DecimalValue(d: string): nat
    requires forall i :: 0 <= i < |d| ==> IsDigit(d[i])
  {
    if |d| == 0 then 0
    else
      var last := d[|d| - 1];
      assert IsDigit(last);
      DecimalValue(d[..|d| - 1]) * 10 + (last as int - '0' as int)
  }

  lemma {:induction false} DecimalRoundTrip(n: nat)
    ensures DecimalValue(Decimal(n)) == n
  {
    if n >= 10 {
      var d := Decimal(n);
      assert d[..|d| - 1] == Decimal(n / 10);
      DecimalRoundTrip(n / 10);
    }
  }

  // ------------------------------------------------------------ code format

  const CodePrefix: string := "CLM-"

  /** `generateCode`: the prefix, the year, a dash and the draw in hex. */
  function GenerateCode(year: nat, draw: Draw): (code: string)
    ensures CodePrefix <= code
    ensures |code| == |CodePrefix| + |Decimal(year)| + 1 + 8
    ensures code[|code| - 9] == '-'
    ensures forall i :: |code| - 8 <= i < |code| ==> IsHexDigit(code[i])
  {
    CodePrefix + Decimal(year) + "-" + Hex(draw)
  }

  /** Reads a code back into its year and random bytes, or `None` when it is
      not of the generated form. */
  function ParseCode(code: string): Option<(nat, seq<Byte>)>
  {
    if |code| < |CodePrefix| + 1 + 1 + 8 || code[..|CodePrefix|] != CodePrefix || code[|code| - 9] != '-' then None
    else
      var digits := code[|CodePrefix|..|code| - 9];
      if !(forall i :: 0 <= i < |digits| ==> IsDigit(digits[i])) then None
      else
        match UnHex(code[|code| - 8..])
        case None => None
        case Some(bs) => Some((DecimalValue(digits), bs))
  }

  /** Every generated code parses back to its year and draw. */
  lemma ParseGenerate(year: nat, draw: Draw)
    ensures ParseCode(GenerateCode(year, draw)) == Some((year, draw))
  {
    var code := GenerateCode(year, draw);
    assert code[|CodePrefix|..|code| - 9] == Decimal(year);
    assert code[|code| - 8..] == Hex(draw);
    DecimalRoundTrip(year);
    UnHexHex(draw);
  }

  /** Two draws give the same code only if they are the same draw. */
  lemma GenerateInjective(year: nat, d1: Draw, d2: Draw)
    requires GenerateCode(year, d1) == GenerateCode(year, d2)
    ensures d1 == d2
  {
    ParseGenerate(year, d1);
    ParseGenerate(year, d2);
  }

  predicate IsCodeOfYear(code: string, year: nat)
  {
    ParseCode(code).Some? && ParseCode(code).value.0 == year
  }

  // ---------------------------------------------------------------- the route

  datatype CodesRequest = CodesRequest(count: Option<int>, expirationDays: Option<int>)

  datatype CodesError =
    | Unauthorized
    | Exhausted   // the supplied random draws ran out before the batch was complete
  {
    function Status(): nat
    {
      if Unauthorized? then 401 else 500
    }
  }

  const MaxBatch: nat := 50
  const DayMillis: nat := 24 * 60 * 60 * 1000

  /** `min(max(count || 1, 1), 50)`. */
  function EffectiveCount(count: Option<int>): (n: nat)
    ensures 1 <= n <= MaxBatch
    ensures TruthyInt(count) && 1 <= count.value <= MaxBatch ==> n == count.value
    ensures !TruthyInt(count) || count.value <= 1 ==> n == 1
    ensures TruthyInt(count) && count.value >= MaxBatch ==> n == MaxBatch
  {
    var requested := if TruthyInt(count) then count.value else 1;
    var atLeastOne := if requested < 1 then 1 else requested;
    if atLeastOne > MaxBatch then MaxBatch else atLeastOne
  }

  /** The batch's expiry, in milliseconds: `days` days after `now`, or none
      when `days` is absent or zero. */
  function SharedExpiry(days: Option<int>, now: int): (e: Option<int>)
    ensures e.Some? <==> TruthyInt(days)
    ensures e.Some? ==> e.value - now == days.value * DayMillis
  {
    if TruthyInt(days) then Some(now + days.value * DayMillis) else None
  }

  /** The random source yields a code for every draw that no earlier draw
      produced and the ledger does not already hold. */
  predicate FreshDraws(held: map<string, AccessCode>, year: nat, draws: seq<Draw>)
  {
    && (forall i, j :: 0 <= i < j < |draws| ==> draws[i] != draws[j])
    && (forall i :: 0 <= i < |draws| ==> GenerateCode(year, draws[i]) !in held)
  }

  /** The POST handler. `caller` is the identity decoded from the request's
      cookie, `draws` the random source. */
  method CreateAccessCodes(s: Store, caller: Option<Principal>, req: CodesRequest, now: int, year: nat, draws: seq<Draw>)
    returns (r: Outcome<seq<string>, CodesError>, s': Store)
    ensures r.Rejected? ==> s' == s
    ensures caller.None? || caller.value.role != TEACHER ==> r == Rejected(Unauthorized)
    ensures caller.Some? && caller.value.role == TEACHER ==> r != Rejected(Unauthorized)
    ensures (caller.Some? && caller.value.role == TEACHER &&
             |draws| >= EffectiveCount(req.count) && FreshDraws(s.codes, year, draws)) ==> r.Done?
    ensures r.Done? ==>
      var codes := r.value;
      && |codes| == EffectiveCount(req.count)
      && (forall i, j :: 0 <= i < j < |codes| ==> codes[i] != codes[j])
      && (forall i :: 0 <= i < |codes| ==> codes[i] !in s.codes && IsCodeOfYear(codes[i], year))
      && (forall c :: c in s'.codes <==> c in s.codes || c in codes)
      && (forall c :: c in s.codes ==> s'.codes[c] == s.codes[c])
      && (forall i :: 0 <= i < |codes| ==>
            s'.codes[codes[i]] == AccessCode(false, None, SharedExpiry(req.expirationDays, now)))
      && s' == s.(codes := s'.codes)
      && |s'.codes| == |s.codes| + |codes|
  {
    if caller.None? || caller.value.role != TEACHER {
      return Rejected(Unauthorized), s;
    }
    var n := EffectiveCount(req.count);
    var expiry := SharedExpiry(req.expirationDays, now);
    var codes := s.codes;
    var out: seq<string> := [];
    var k := 0;
    // One pass per draw: a draw whose code is already held is discarded and
    // the next one tried, as the route's do-while does.
    while |out| < n
      invariant 0 <= k <= |draws|
      invariant |out| <= n
      invariant forall i, j :: 0 <= i < j < |out| ==> out[i] != out[j]
      invariant forall i :: 0 <= i < |out| ==> out[i] !in s.codes && IsCodeOfYear(out[i], year)
      invariant forall c :: c in codes <==> c in s.codes || c in out
      invariant forall c :: c in s.codes ==> codes[c] == s.codes[c]
      invariant forall c :: c in codes && c !in s.codes ==> codes[c] == AccessCode(false, None, expiry)
      invariant |codes| == |s.codes| + |out|
      invariant FreshDraws(s.codes, year, draws) ==>
        |out| == k && forall i :: k <= i < |draws| ==> GenerateCode(year, draws[i]) !in codes
      decreases |draws| - k
    {
      if k == |draws| {
        return Rejected(Exhausted), s;
      }
      var code := GenerateCode(year, draws[k]);
      ParseGenerate(year, draws[k]);
      if FreshDraws(s.codes, year, draws) {
        // later draws differ from this one, so their codes stay unheld
        forall i | k < i < |draws| ensures GenerateCode(year, draws[i]) != code {
          if GenerateCode(year, draws[i]) == code {
            GenerateInjective(year, draws[k], draws[i]);
          }
        }
      }
      k := k + 1;
      if code !in codes {
        codes := codes[code := AccessCode(false, None, expiry)];
        out := out + [code];
      }
    }
    return Done(out), s.(codes := codes);
  }

  /** The generated codes enter the ledger unused and keep it consistent. */
  lemma NewCodesKeepLedger(s: Store, s': Store, added: seq<string>, expiry: Option<int>)
    requires Valid(s)
    requires forall c :: c in s'.codes <==> c in s.codes || c in added
    requires forall c :: c in s.codes ==> s'.codes[c] == s.codes[c]
    requires forall i :: 0 <= i < |added| ==> s'.codes[added[i]] == AccessCode(false, None, expiry)
    requires s' == s.(codes := s'.codes)
    ensures Valid(s')
  {
  }
}

=== FILE: activities.dfy ===
/** The activity-creation route (src/app/api/activities/route.ts): a teacher
    publishes an exercise; optional fields fall back to their defaults. */
module ActivityRoute {
  import opened Common
  import opened Store
  import Auth

  datatype ActivityRequest = ActivityRequest(
    title: Option<string>,
    description: Option<string>,
    kind: Option<string>,
    content: Option<string>,
    instructions: Option<string>,
    dueDate: Option<string>,
    isPublished: Option<bool>,
    culturalHints: Option<seq<Hint>>)

  datatype ActivityError =
    | Unauthorized
    | MissingFields
    | CreateFailed    // the database refused the row (no creator id in the session)
  {
    function Status(): nat
    {
      match this
      case Unauthorized => 401
      case MissingFields => 400
      case CreateFailed => 500
    }
  }

  /** A falsy text field is stored as null. */
  function OrNull(o: Option<string>): (r: Option<string>)
    ensures r.Some? <==> Truthy(o)
    ensures r.Some? ==> r == o
  {
    if Truthy(o) then o else None
  }

  /** The row the route writes for a request that passed its checks. */
  function NewActivity(req: ActivityRequest, creator: Id): (a: Activity)
    requires Truthy(req.title) && Truthy(req.kind) && Truthy(req.content)
    ensures a.title == req.title.value && a.kind == req.kind.value && a.content == req.content.value
    ensures a.description == OrNull(req.description) && a.instructions == OrNull(req.instructions)
    ensures a.dueDate == OrNull(req.dueDate)
    ensures a.isPublished <==> req.isPublished == Some(true)
    ensures a.culturalHints.Some? <==> req.culturalHints.Some? && |req.culturalHints.value| > 0
    ensures a.culturalHints.Some? ==> a.culturalHints == req.culturalHints
    ensures a.createdBy == creator
  {
    Activity(
      req.title.value,
      OrNull(req.description),
      req.kind.value,
      req.content.value,
      OrNull(req.instructions),
      OrNull(req.dueDate),
      if req.isPublished.Some? then req.isPublished.value else false,
      if req.culturalHints.Some? && |req.culturalHints.value| > 0 then req.culturalHints else None,
      creator)
  }

  function PostActivity(s: Store, session: Option<Auth.SessionUser>, req: ActivityRequest): (r: (Outcome<Id, ActivityError>, Store))
    ensures r.0.Rejected? ==> r.1 == s
    ensures session.None? || session.value.role != Teacher ==> r.0 == Rejected(Unauthorized)
    ensures (session.Some? && session.value.role == Teacher &&
             (!Truthy(req.title) || !Truthy(req.kind) || !Truthy(req.content))) ==> r.0 == Rejected(MissingFields)
    ensures (session.Some? && session.value.role == Teacher &&
             Truthy(req.title) && Truthy(req.kind) && Truthy(req.content) && session.value.id.None?) ==>
      r.0 == Rejected(CreateFailed)
    ensures r.0.Done? <==>
      session.Some? && session.value.role == Teacher && session.value.id.Some? &&
      Truthy(req.title) && Truthy(req.kind) && Truthy(req.content)
    ensures r.0.Done? ==> r.0.value == s.nextId
    ensures r.0.Done? ==>
      && r.1.activities == s.activities[r.0.value := NewActivity(req, session.value.id.value)]
      && r.1.users == s.users && r.1.codes == s.codes && r.1.submissions == s.submissions
      && r.1.slots == s.slots && r.1.feedback == s.feedback && r.1.nextId == s.nextId + 1
  {
    if session.None? || session.value.role != Teacher then (Rejected(Unauthorized), s)
    else if !Truthy(req.title) || !Truthy(req.kind) || !Truthy(req.content) then (Rejected(MissingFields), s)
    else if session.value.id.None? then (Rejected(CreateFailed), s)
    else
      (Done(s.nextId), s.(activities := s.activities[s.nextId := NewActivity(req, session.value.id.value)], nextId := s.nextId + 1))
  }

  /** Creating an activity keeps every store invariant, and the new row is
      fresh: it does not replace an existing activity. */
  lemma PostActivityPreservesValid(s: Store, session: Option<Auth.SessionUser>, req: ActivityRequest)
    requires Valid(s)
    ensures Valid(PostActivity(s, session, req).1)
    ensures PostActivity(s, session, req).0.Done? ==>
      |PostActivity(s, session, req).1.activities| == |s.activities| + 1
  {
    var (r, s') := PostActivity(s, session, req);
    if r.Done? {
      assert s.nextId !in s.activities;
    }
  }
}

=== FILE: auth.dfy ===
/** Authentication: the credentials `authorize` check, the OAuth `signIn`
    access-code gate, the `jwt` and `session` callbacks (src/lib/auth.ts),
    and the hand-rolled login route that issues its own token cookie
    (src/app/api/auth/login/route.ts). bcrypt's compare is a parameter;
    token signing is represented by the payload it signs. */
module Auth {
  import opened Common
  import opened Store
  import opened Ledger

  /** bcrypt's `compare(plain, hash)`. */
  type Compare = (string, string) -> bool

  // ---------------------------------------------------------------- authorize

  datatype Credentials = Credentials(email: Option<string>, password: Option<string>)

  /** The user object `authorize` hands back to the session machinery. */
  datatype AuthUser = AuthUser(id: Id, email: string, name: Option<string>, role: Role)

  function AuthUserOf(u: User): AuthUser
  {
    AuthUser(u.id, u.email, u.name, u.role)
  }

  /** Missing credentials, or a failed check of any kind (the last two share
      one message). */
  datatype AuthorizeError = MissingCredentials | IncorrectCredentials

  /** Whether the stored user `email` may sign in with `password`. */
  predicate PasswordAccepted(s: Store, email: string, password: string, compare: Compare)
  {
    email in s.users && Truthy(s.users[email].password) && compare(password, s.users[email].password.value)
  }

  function Authorize(s: Store, cred: Credentials, compare: Compare): (r: Outcome<AuthUser, AuthorizeError>)
    ensures !Truthy(cred.email) || !Truthy(cred.password) ==> r == Rejected(MissingCredentials)
    ensures r.Done? <==>
      Truthy(cred.email) && Truthy(cred.password) && PasswordAccepted(s, cred.email.value, cred.password.value, compare)
    ensures r.Rejected? && Truthy(cred.email) && Truthy(cred.password) ==> r.error == IncorrectCredentials
    ensures r.Done? ==> r.value == AuthUserOf(s.users[cred.email.value])
  {
    if !Truthy(cred.email) || !Truthy(cred.password) then Rejected(MissingCredentials)
    else if cred.email.value !in s.users then Rejected(IncorrectCredentials)
    else
      var user := s.users[cred.email.value];
      if !Truthy(user.password) then Rejected(IncorrectCredentials)
      else if !compare(cred.password.value, user.password.value) then Rejected(IncorrectCredentials)
      else Done(AuthUserOf(user))
  }

  // ------------------------------------------------------------------- signIn

  const CredentialsProvider: string := "credentials"

  /** `true`, or the sign-in page URL carrying the error name. */
  datatype SignInResult = Allow | Deny(reason: CodeError)

  function ErrorPage(reason: CodeError): string
  {
    "/auth/signin?error=" +
      match reason
      case CodeRequired => "AccessCodeRequired"
      case CodeInvalid => "InvalidAccessCode"
      case CodeUsed => "AccessCodeUsed"
      case CodeExpired => "AccessCodeExpired"
  }

  /** The `signIn` callback. `provider` is the account's provider id,
      `email` the signing-in user's address and `cookieCode` the value of the
      access-code cookie. A new OAuth user needs a redeemable code, which is
      then consumed. */
  function SignIn(s: Store, provider: Option<string>, email: string, cookieCode: Option<string>, now: int): (r: (SignInResult, Store))
    ensures r.0.Deny? ==> r.1 == s
    ensures provider == Some(CredentialsProvider) ==> r == (Allow, s)
    ensures email in s.users ==> r == (Allow, s)
    ensures provider != Some(CredentialsProvider) && email !in s.users ==>
      match CheckCode(s.codes, cookieCode, now)
      case Some(e) => r == (Deny(e), s)
      case None => r.0 == Allow && r.1 == s.(codes := Redeem(s.codes, cookieCode.value, email))
  {
    if provider == Some(CredentialsProvider) then (Allow, s)
    else if email in s.users then (Allow, s)
    else
      match CheckCode(s.codes, cookieCode, now)
      case Some(e) => (Deny(e), s)
      case None => (Allow, s.(codes := Redeem(s.codes, cookieCode.value, email)))
  }

  /** The sign-in callback keeps every store invariant. */
  lemma SignInPreservesValid(s: Store, provider: Option<string>, email: string, cookieCode: Option<string>, now: int)
    requires Valid(s)
    ensures Valid(SignIn(s, provider, email, cookieCode, now).1)
  {
    if provider != Some(CredentialsProvider) && email !in s.users && CheckCode(s.codes, cookieCode, now).None? {
      RedeemKeepsLedger(s, cookieCode.value, email);
    }
  }

  /** Once a new OAuth user has consumed a code, nobody else can sign up with it. */
  lemma SignInCodeSingleUse(s: Store, p1: Option<string>, e1: string, p2: Option<string>, e2: string, code: string, now1: int, now2: int)
    requires p1 != Some(CredentialsProvider) && e1 !in s.users
    requires SignIn(s, p1, e1, Some(code), now1).0 == Allow
    requires p2 != Some(CredentialsProvider) && e2 !in s.users
    ensures SignIn(SignIn(s, p1, e1, Some(code), now1).1, p2, e2, Some(code), now2).0 == Deny(CodeUsed)
  {
    RedeemedCodeIsUsed(s.codes, code, e1, now2);
  }

  // --------------------------------------------------------- jwt and session

  /** The fields the callbacks keep in the session token. */
  datatype Token = Token(id: Option<Id>, email: Option<string>, role: Option<Role>, hasAccessCode: Option<bool>)

  /** The `user` argument of the `jwt` callback on sign-in. The callback
      branches only on whether this object has a `role`: `authorize` always
      supplies one, and for other providers it depends on the object the
      database adapter hands over. */
  datatype SignedInUser = SignedInUser(id: Id, email: string, role: Option<Role>)

  function Jwt(s: Store, token: Token, user: Option<SignedInUser>): (t: Token)
    ensures user.None? ==> t == token
    ensures t.email == token.email
    ensures user.Some? && user.value.role.Some? ==>
      t.id == Some(user.value.id) && t.role == user.value.role && t.hasAccessCode == Some(false)
    ensures user.Some? && user.value.role.None? && user.value.email in s.users ==>
      var u := s.users[user.value.email];
      t.id == Some(u.id) && t.role == Some(u.role) && t.hasAccessCode == Some(Truthy(u.accessCode))
    ensures user.Some? && user.value.role.None? && user.value.email !in s.users ==> t == token
  {
    match user
    case None => token
    case Some(u) =>
      if u.role.Some? then token.(id := Some(u.id), role := u.role, hasAccessCode := Some(false))
      else if u.email in s.users then
        var row := s.users[u.email];
        token.(id := Some(row.id), role := Some(row.role), hasAccessCode := Some(Truthy(row.accessCode)))
      else token
  }

  /** The session's user as route handlers see it. */
  datatype SessionUser = SessionUser(id: Option<Id>, email: Option<string>, role: Role, hasAccessCode: bool)

  function Session(t: Token): (u: SessionUser)
    ensures u.id == t.id && u.email == t.email
  {
    SessionUser(
      t.id,
      t.email,
      if t.role.Some? then t.role.value else Student,
      if t.hasAccessCode.Some? then t.hasAccessCode.value else false)
  }

  /** A token without a role reads as a student without a code; fields that
      are present are kept. */
  lemma SessionDefaults(t: Token)
    ensures t.role.None? ==> Session(t).role == Student
    ensures t.role.Some? ==> Session(t).role == t.role.value
    ensures t.hasAccessCode.None? ==> !Session(t).hasAccessCode
    ensures t.hasAccessCode.Some? ==> Session(t).hasAccessCode == t.hasAccessCode.value
  {
  }

  /** After a credentials sign-in, the session carries the stored user's id
      and role and reports no access code. */
  lemma CredentialsSession(s: Store, cred: Credentials, compare: Compare, token: Token)
    requires Authorize(s, cred, compare).Done?
    ensures var a := Authorize(s, cred, compare).value;
      var su := Session(Jwt(s, token, Some(SignedInUser(a.id, a.email, Some(a.role)))));
      su.id == Some(s.users[cred.email.value].id) && su.role == s.users[cred.email.value].role && !su.hasAccessCode
  {
  }

  /** After a sign-in whose user object has no `role`, the session carries
      the stored user's id and role, and says whether the user holds a code. */
  lemma RolelessSignInSession(s: Store, id: Id, email: string, token: Token)
    requires email in s.users
    ensures var su := Session(Jwt(s, token, Some(SignedInUser(id, email, None))));
      su.id == Some(s.users[email].id) && su.role == s.users[email].role &&
      su.hasAccessCode == Truthy(s.users[email].accessCode)
  {
  }

  // -------------------------------------------------------------- login route

  datatype LoginRequest = LoginRequest(email: Option<string>, password: Option<string>)

  datatype LoginError = LoginMissingFields | InvalidCredentials
  {
    function Status(): nat
    {
      if LoginMissingFields? then 400 else 401
    }
  }

  /** Seven days, in seconds: the token's lifetime and the cookie's max-age. */
  const SessionLifetime: nat := 60 * 60 * 24 * 7

  /** What the route signs into the cookie token. */
  datatype TokenPayload = TokenPayload(id: Id, email: string, role: Role)

  datatype SessionCookie = SessionCookie(
    payload: TokenPayload,
    expiresIn: nat,
    maxAge: nat,
    httpOnly: bool,
    sameSite: string,
    path: string)

  datatype LoginOk = LoginOk(user: AuthUser, cookie: SessionCookie)

  /** Whether the login route admits `password` for the stored user `key`:
      a user without a stored password is admitted without a check. */
  predicate LoginAccepted(s: Store, key: string, password: string, compare: Compare)
  {
    key in s.users && (Truthy(s.users[key].password) ==> compare(password, s.users[key].password.value))
  }

  function Login(s: Store, req: LoginRequest, compare: Compare): (r: Outcome<LoginOk, LoginError>)
    ensures !Truthy(req.email) || !Truthy(req.password) ==> r == Rejected(LoginMissingFields)
    ensures r.Done? <==>
      Truthy(req.email) && Truthy(req.password) && LoginAccepted(s, ToLower(req.email.value), req.password.value, compare)
    ensures r.Rejected? && Truthy(req.email) && Truthy(req.password) ==> r.error == InvalidCredentials
    ensures r.Done? ==>
      var u := s.users[ToLower(req.email.value)];
      && r.value.user == AuthUserOf(u)
      && r.value.cookie.payload == TokenPayload(u.id, u.email, u.role)
      && r.value.cookie.expiresIn == r.value.cookie.maxAge == 604800
      && r.value.cookie.httpOnly
  {
    if !Truthy(req.email) || !Truthy(req.password) then Rejected(LoginMissingFields)
    else
      var key := ToLower(req.email.value);
      if key !in s.users then Rejected(InvalidCredentials)
      else
        var user := s.users[key];
        if Truthy(user.password) && !compare(req.password.value, user.password.value) then Rejected(InvalidCredentials)
        else
          var payload := TokenPayload(user.id, user.email, user.role);
          Done(LoginOk(AuthUserOf(user), SessionCookie(payload, SessionLifetime, SessionLifetime, true, "lax", "/")))
  }

  /** The login route looks users up by lower-cased address, so the case of
      the address typed does not matter. */
  lemma LoginIgnoresCase(s: Store, email: string, password: Option<string>, compare: Compare)
    ensures Login(s, LoginRequest(Some(email), password), compare) ==
            Login(s, LoginRequest(Some(ToLower(email)), password), compare)
  {
    ToLowerIdempotent(email);
  }

  /** A user without a stored password is let in by the login route with any
      password at all, while `authorize` turns the same user away. */
  lemma PasswordlessDivergence(s: Store, email: string, password: string, compare: Compare)
    requires email != "" && password != ""
    requires email in s.users && !Truthy(s.users[email].password)
    requires forall i :: 0 <= i < |email| ==> !IsUpper(email[i])
    ensures Login(s, LoginRequest(Some(email), Some(password)), compare).Done?
    ensures Authorize(s, Credentials(Some(email), Some(password)), compare) == Rejected(IncorrectCredentials)
  {
    ToLowerOfLower(email);
  }
}

=== FILE: common.dfy ===
/** Shared vocabulary of the course-support server model: optional values,
    route outcomes, JavaScript truthiness of request fields, roles, and the
    ASCII lower-casing the login route applies to e-mail addresses. */
module Common {

  /** A request field or a stored column that may be absent (`undefined`/`null`). */
  datatype Option<+T> = None | Some(value: T)

  /** What a route handler answers: a success payload or one of its errors. */
  datatype Outcome<+T, +E> = Done(value: T) | Rejected(error: E)

  /** A string field is truthy in JavaScript when it is present and not "". */
  predicate Truthy(o: Option<string>)
  {
    o.Some? && o.value != ""
  }

  /** A numeric field is truthy when it is present and not 0. */
  predicate TruthyInt(o: Option<int>)
  {
    o.Some? && o.value != 0
  }

  /** The two values of the database's Role enum. */
  datatype Role = Teacher | Student

  const TEACHER: string := "TEACHER"
  const STUDENT: string := "STUDENT"

  /** The identity a signed cookie token decodes to, as the middleware and the
      access-code route see it: the role is whatever string the token carries. */
  datatype Principal = Principal(role: string)

  predicate IsUpper(c: char)
  {
    'A' <= c <= 'Z'
  }

  function LowerChar(c: char): char
  {
    if IsUpper(c) then (c as int - 'A' as int + 'a' as int) as char else c
  }

  /** `String.prototype.toLowerCase`, restricted to ASCII letters. */
  function ToLower(s: string): (r: string)
    ensures |r| == |s|
    ensures forall i :: 0 <= i < |s| ==> r[i] == LowerChar(s[i])
  {
    seq(|s|, i requires 0 <= i < |s| => LowerChar(s[i]))
  }

  /** Lower-casing twice is lower-casing once. */
  lemma ToLowerIdempotent(s: string)
    ensures ToLower(ToLower(s)) == ToLower(s)
  {
    assert forall i :: 0 <= i < |s| ==> LowerChar(LowerChar(s[i])) == LowerChar(s[i]);
  }

  /** A string without upper-case letters is its own lower-case form. */
  lemma ToLowerOfLower(s: string)
    requires forall i :: 0 <= i < |s| ==> !IsUpper(s[i])
    ensures ToLower(s) == s
  {
  }
}

=== FILE: feedback.dfy ===
/** The feedback route (src/app/api/feedback/route.ts): a teacher's comment
    and ratings on a submission, written in one transaction with the
    submission's new review status. */
module FeedbackRoute {
  import opened Common
  import opened Store
  import Auth

  datatype FeedbackRequest = FeedbackRequest(
    submissionId: Option<Id>,
    comment: Option<string>,
    pronunciation: Option<int>,
    fluency: Option<int>,
    culturalUse: Option<int>,
    status: Option<string>)

  datatype FeedbackError =
    | Unauthorized
    | MissingFields
    | SubmissionNotFound
    | TransactionFailed   // the database refused a write; the whole transaction is undone
  {
    function Status(): nat
    {
      match this
      case Unauthorized => 401
      case MissingFields => 400
      case SubmissionNotFound => 404
      case TransactionFailed => 500
    }
  }

  /** The database's reading of a status name; other names are refused. */
  function ParseStatus(name: string): (st: Option<Status>)
    ensures st.Some? <==> name in {"PENDING", "REVIEWED", "NEEDS_REVISION"}
    ensures st == Some(Pending) <==> name == "PENDING"
    ensures st == Some(Reviewed) <==> name == "REVIEWED"
    ensures st == Some(NeedsRevision) <==> name == "NEEDS_REVISION"
  {
    if name == "PENDING" then Some(Pending)
    else if name == "REVIEWED" then Some(Reviewed)
    else if name == "NEEDS_REVISION" then Some(NeedsRevision)
    else None
  }

  /** The status the route writes: the requested one, or REVIEWED when none
      (or an empty one) was sent. */
  function NewStatus(requested: Option<string>): Option<Status>
  {
    ParseStatus(if Truthy(requested) then requested.value else "REVIEWED")
  }

  lemma NewStatusDefault(requested: Option<string>)
    ensures !Truthy(requested) ==> NewStatus(requested) == Some(Reviewed)
    ensures Truthy(requested) && requested.value == "NEEDS_REVISION" ==> NewStatus(requested) == Some(NeedsRevision)
  {
  }

  function PostFeedback(s: Store, session: Option<Auth.SessionUser>, req: FeedbackRequest, now: int): (r: (Outcome<Id, FeedbackError>, Store))
    ensures r.0.Rejected? ==> r.1 == s
    ensures session.None? || session.value.role != Teacher ==> r.0 == Rejected(Unauthorized)
    ensures session.Some? && session.value.role == Teacher && (req.submissionId.None? || !Truthy(req.comment)) ==>
      r.0 == Rejected(MissingFields)
    ensures (session.Some? && session.value.role == Teacher && req.submissionId.Some? && Truthy(req.comment) &&
             req.submissionId.value !in s.submissions) ==> r.0 == Rejected(SubmissionNotFound)
    ensures (session.Some? && session.value.role == Teacher && req.submissionId.Some? && Truthy(req.comment) &&
             req.submissionId.value in s.submissions && (session.value.id.None? || NewStatus(req.status).None?)) ==>
      r.0 == Rejected(TransactionFailed)
    ensures r.0.Done? <==>
      && session.Some? && session.value.role == Teacher && session.value.id.Some?
      && req.submissionId.Some? && Truthy(req.comment) && req.submissionId.value in s.submissions
      && NewStatus(req.status).Some?
    ensures r.0.Done? ==>
      && session.Some? && session.value.id.Some?
      && req.submissionId.Some? && req.submissionId.value in s.submissions
      && NewStatus(req.status).Some?
      && var sid, fid := req.submissionId.value, r.0.value;
      // exactly one feedback row, by the session's teacher
      && fid == s.nextId
      && r.1.feedback == s.feedback[fid := Feedback(sid, session.value.id.value, req.comment.value,
                                                     req.pronunciation, req.fluency, req.culturalUse, now)]
      // the reviewed submission's status, and nothing else about it, changes
      && r.1.submissions.Keys == s.submissions.Keys
      && r.1.submissions[sid] == s.submissions[sid].(status := NewStatus(req.status).value)
      && (forall j :: j in s.submissions && j != sid ==> r.1.submissions[j] == s.submissions[j])
      && r.1.users == s.users && r.1.codes == s.codes && r.1.activities == s.activities && r.1.slots == s.slots
      && r.1.nextId == s.nextId + 1
  {
    if session.None? || session.value.role != Teacher then (Rejected(Unauthorized), s)
    else if req.submissionId.None? || !Truthy(req.comment) then (Rejected(MissingFields), s)
    else if req.submissionId.value !in s.submissions then (Rejected(SubmissionNotFound), s)
    else if session.value.id.None? || NewStatus(req.status).None? then (Rejected(TransactionFailed), s)
    else
      var sid := req.submissionId.value;
      var fb := Feedback(sid, session.value.id.value, req.comment.value, req.pronunciation, req.fluency, req.culturalUse, now);
      (Done(s.nextId),
       s.(feedback := s.feedback[s.nextId := fb],
          submissions := s.submissions[sid := s.submissions[sid].(status := NewStatus(req.status).value)],
          nextId := s.nextId + 1))
  }

  /** The two writes happen together or not at all: either the store is
      untouched, or there is one more feedback row and its submission has
      the new status. */
  lemma FeedbackAllOrNothing(s: Store, session: Option<Auth.SessionUser>, req: FeedbackRequest, now: int)
    requires RowsValid(s)
    ensures var (r, s') := PostFeedback(s, session, req, now);
      || s' == s
      || (&& |s'.feedback| == |s.feedback| + 1
          && s'.feedback[r.value].submissionId in s'.submissions
          && Some(s'.submissions[s'.feedback[r.value].submissionId].status) == NewStatus(req.status))
  {
    var (r, s') := PostFeedback(s, session, req, now);
    if r.Done? {
      assert s.nextId !in s.feedback;
    }
  }

  /** Leaving feedback keeps every store invariant. */
  lemma PostFeedbackPreservesValid(s: Store, session: Option<Auth.SessionUser>, req: FeedbackRequest, now: int)
    requires Valid(s)
    ensures Valid(PostFeedback(s, session, req, now).1)
  {
    var (r, s') := PostFeedback(s, session, req, now);
    if r.Done? {
      var sid := req.submissionId.value;
      assert SlotOf(s'.submissions[sid]) == SlotOf(s.submissions[sid]);
      assert forall i :: i in s'.submissions ==> SlotOf(s'.submissions[i]) == SlotOf(s.submissions[i]);
    }
  }
}

=== FILE: guard.dfy ===
/** The request guard that runs before every page and API route
    (src/middleware.ts), and the dashboard page's role-based redirect
    (src/app/dashboard/page.tsx). Both are pure decisions over a path and the
    identity decoded from the session cookie, if any. */
module RouteGuard {
  import opened Common

  const SignInPage: string := "/auth/signin"
  const TeacherHome: string := "/profesor"
  const StudentHome: string := "/estudiante"

  /** Let the request through, or answer with a redirect. */
  datatype Decision = Next | Redirect(location: string)

  /** Paths that are served without looking at the session. */
  predicate IsPublicPath(path: string)
  {
    || path == "/"
    || path == SignInPage
    || "/api/auth/" <= path
    || "/api/submissions" <= path
  }

  /** The middleware. `user` is what decoding the request's cookie produced;
      it is consulted only for non-public paths. */
  function Middleware(path: string, user: Option<Principal>): (d: Decision)
    ensures d.Redirect? ==> d.location in {SignInPage, TeacherHome, StudentHome}
    ensures d == Redirect(SignInPage) <==> !IsPublicPath(path) && user.None?
  {
    if IsPublicPath(path) then Next
    else if user.None? then Redirect(SignInPage)
    else if TeacherHome <= path && user.value.role != TEACHER then Redirect(StudentHome)
    else if StudentHome <= path && user.value.role != STUDENT then Redirect(TeacherHome)
    else Next
  }

  /** Public paths pass whatever the session says, so no lookup is needed. */
  lemma PublicPathsIgnoreSession(path: string, u1: Option<Principal>, u2: Option<Principal>)
    requires IsPublicPath(path)
    ensures Middleware(path, u1) == Next
    ensures Middleware(path, u1) == Middleware(path, u2)
  {
  }

  /** Every non-public path sends an anonymous request to the sign-in page;
      the registration page is one of them. */
  lemma AnonymousRedirectedToSignIn(path: string)
    requires !IsPublicPath(path)
    ensures Middleware(path, None) == Redirect(SignInPage)
  {
  }

  lemma RegisterPageNotPublic()
    ensures !IsPublicPath("/auth/register")
    ensures Middleware("/auth/register", None) == Redirect(SignInPage)
  {
    var path := "/auth/register";
    assert path[2] != "/api/auth/"[2];
    assert path[2] != "/api/submissions"[2];
  }

  /** The two role-scoped subtrees are disjoint from the public paths. */
  lemma SubtreesNotPublic(path: string)
    requires TeacherHome <= path || StudentHome <= path
    ensures !IsPublicPath(path)
  {
    assert path[1] == 'p' || path[1] == 'e';
    assert path != "/" && path[1] != SignInPage[1];
    assert path[1] != "/api/auth/"[1] && path[1] != "/api/submissions"[1];
  }

  /** A signed-in user outside a subtree of their role is sent to the other home. */
  lemma WrongRoleRedirected(path: string, p: Principal)
    ensures TeacherHome <= path && p.role != TEACHER ==>
      Middleware(path, Some(p)) == Redirect(StudentHome)
    ensures StudentHome <= path && p.role != STUDENT ==>
      Middleware(path, Some(p)) == Redirect(TeacherHome)
  {
    if TeacherHome <= path || StudentHome <= path {
      SubtreesNotPublic(path);
    }
    if StudentHome <= path {
      assert !(TeacherHome <= path) by { assert path[1] == 'e'; }
    }
  }

  /** A signed-in user whose role matches the subtree, or who is outside both
      subtrees, goes through unchanged. */
  lemma MatchingRolePasses(path: string, p: Principal)
    requires !IsPublicPath(path)
    requires TeacherHome <= path ==> p.role == TEACHER
    requires StudentHome <= path ==> p.role == STUDENT
    ensures Middleware(path, Some(p)) == Next
  {
  }

  /** For the two real roles, the target of a role redirect is itself let
      through, so the guard never redirects twice in a row. */
  lemma NoRedirectLoop(path: string, p: Principal)
    requires p.role == TEACHER || p.role == STUDENT
    requires Middleware(path, Some(p)).Redirect?
    ensures Middleware(Middleware(path, Some(p)).location, Some(p)) == Next
  {
    var target := Middleware(path, Some(p)).location;
    assert target == TeacherHome || target == StudentHome;
    assert !(StudentHome <= TeacherHome) by { assert TeacherHome[1] != StudentHome[1]; }
    assert !(TeacherHome <= StudentHome) by { assert TeacherHome[1] != StudentHome[1]; }
  }

  /** A role string that is neither value of the enum bounces between the two
      homes forever. */
  lemma OtherRoleBounces(p: Principal)
    requires p.role != TEACHER && p.role != STUDENT
    ensures Middleware(TeacherHome, Some(p)) == Redirect(StudentHome)
    ensures Middleware(StudentHome, Some(p)) == Redirect(TeacherHome)
  {
    SubtreesNotPublic(TeacherHome);
    SubtreesNotPublic(StudentHome);
    assert !(TeacherHome <= StudentHome) by { assert TeacherHome[1] != StudentHome[1]; }
  }

  /** The dashboard page: no cookie or an unverifiable one goes to sign-in;
      otherwise teachers go to their home and every other role to the
      student home. `verify` is the token verifier. */
  function Dashboard(token: Option<string>, verify: string -> Option<Principal>): (target: string)
    ensures target == SignInPage <==> !Truthy(token) || verify(token.value).None?
    ensures target == TeacherHome <==> Truthy(token) && verify(token.value).Some? && verify(token.value).value.role == TEACHER
    ensures target in {SignInPage, TeacherHome, StudentHome}
  {
    if !Truthy(token) then SignInPage
    else
      match verify(token.value)
      case None => SignInPage
      case Some(user) => if user.role == TEACHER then TeacherHome else StudentHome
  }

  /** The dashboard's target for a verified user with a real role is a page the
      guard lets that user see. */
  lemma DashboardTargetPasses(token: Option<string>, verify: string -> Option<Principal>)
    requires Truthy(token) && verify(token.value).Some?
    requires verify(token.value).value.role in {TEACHER, STUDENT}
    ensures Middleware(Dashboard(token, verify), verify(token.value)) == Next
  {
    var target := Dashboard(token, verify);
    SubtreesNotPublic(target);
    assert !(StudentHome <= TeacherHome) by { assert TeacherHome[1] != StudentHome[1]; }
    assert !(TeacherHome <= StudentHome) by { assert TeacherHome[1] != StudentHome[1]; }
  }
}

=== FILE: ledger.dfy ===
/** The access-code ledger: the ordered validity check a candidate enrollment
    code goes through, and its single-use redemption. Both the credentials
    registration route and the OAuth sign-in callback run exactly this check
    (src/app/api/auth/register/route.ts:36-66, src/lib/auth.ts:92-110). */
module Ledger {
  import opened Common
  import opened Store

  /** Why a code cannot be redeemed, in the order the checks run. */
  datatype CodeError = CodeRequired | CodeInvalid | CodeUsed | CodeExpired

  /** A code with an expiry strictly before `now` has expired; a code without
      one never does, and one expiring exactly at `now` is still good. */
  predicate Expired(c: AccessCode, now: int)
  {
    c.expiresAt.Some? && c.expiresAt.value < now
  }

  predicate Redeemable(codes: map<string, AccessCode>, code: string, now: int)
  {
    code in codes && !codes[code].isUsed && !Expired(codes[code], now)
  }

  /** The check, in source order: presence, existence, use, expiry. */
  function CheckCode(codes: map<string, AccessCode>, code: Option<string>, now: int): (r: Option<CodeError>)
    ensures r.None? <==> Truthy(code) && Redeemable(codes, code.value, now)
    ensures r == Some(CodeRequired) <==> !Truthy(code)
    ensures r == Some(CodeInvalid) <==> Truthy(code) && code.value !in codes
    ensures r == Some(CodeUsed) <==> Truthy(code) && code.value in codes && codes[code.value].isUsed
  {
    if !Truthy(code) then Some(CodeRequired)
    else if code.value !in codes then Some(CodeInvalid)
    else if codes[code.value].isUsed then Some(CodeUsed)
    else if Expired(codes[code.value], now) then Some(CodeExpired)
    else None
  }

  /** Marks one code used by `email`; every other code is untouched. */
  function Redeem(codes: map<string, AccessCode>, code: string, email: string): (r: map<string, AccessCode>)
    requires code in codes
    ensures r.Keys == codes.Keys
    ensures r[code].isUsed && r[code].usedBy == Some(email)
    ensures r[code].expiresAt == codes[code].expiresAt
    ensures forall c :: c in codes && c != code ==> r[c] == codes[c]
  {
    codes[code := codes[code].(isUsed := true, usedBy := Some(email))]
  }

  /** A redeemed code is rejected as used from then on, at any time. */
  lemma RedeemedCodeIsUsed(codes: map<string, AccessCode>, code: string, email: string, later: int)
    requires code in codes && code != ""
    ensures CheckCode(Redeem(codes, code, email), Some(code), later) == Some(CodeUsed)
  {
  }

  /** An expiry equal to the current instant does not reject the code. */
  lemma ExpiryBoundaryAccepted(codes: map<string, AccessCode>, code: string, now: int)
    requires code in codes && code != ""
    requires !codes[code].isUsed && codes[code].expiresAt == Some(now)
    ensures CheckCode(codes, Some(code), now).None?
    ensures CheckCode(codes, Some(code), now + 1) == Some(CodeExpired)
  {
  }

  /** A used code is reported as used even when it has also expired: the use
      check comes first. */
  lemma UsedBeforeExpired(codes: map<string, AccessCode>, code: string, now: int)
    requires code in codes && code != ""
    requires codes[code].isUsed && Expired(codes[code], now)
    ensures CheckCode(codes, Some(code), now) == Some(CodeUsed)
  {
  }

  /** Redeeming an unused code keeps the ledger invariant, provided the
      redeeming address holds no code yet. */
  lemma RedeemKeepsLedger(s: Store, code: string, email: string)
    requires LedgerValid(s)
    requires code in s.codes && !s.codes[code].isUsed
    requires email !in s.users
    ensures LedgerValid(s.(codes := Redeem(s.codes, code, email)))
  {
    var s' := s.(codes := Redeem(s.codes, code, email));
    forall e | e in s'.users && s'.users[e].accessCode.Some?
      ensures s'.users[e].accessCode.value in s'.codes
      ensures s'.codes[s'.users[e].accessCode.value].usedBy == Some(e)
    {
      assert s'.users[e].accessCode.value != code;
    }
  }
}

=== FILE: register.dfy ===
/** The credentials registration route (src/app/api/auth/register/route.ts):
    ordered validation of the form, then one atomic step that creates a
    student and consumes the access code. bcrypt's hash is a parameter. */
module Registration {
  import opened Common
  import opened Store
  import opened Ledger
  import Auth

  datatype RegisterRequest = RegisterRequest(
    name: Option<string>,
    email: Option<string>,
    password: Option<string>,
    accessCode: Option<string>)

  datatype RegisterError = MissingFields | PasswordTooShort | EmailTaken | BadCode(reason: CodeError)
  {
    function Status(): nat
    {
      if EmailTaken? then 409 else 400
    }
  }

  /** The 201 body. */
  datatype Registered = Registered(id: Id, email: string, name: string)

  const MinPasswordLength: nat := 6

  /** The form passes the field checks that precede any database access. */
  predicate FieldsOk(req: RegisterRequest)
  {
    Truthy(req.name) && Truthy(req.email) && Truthy(req.password) && |req.password.value| >= MinPasswordLength
  }

  /** Everything the route checks before it writes. */
  predicate Admissible(s: Store, req: RegisterRequest, now: int)
  {
    FieldsOk(req) && req.email.value !in s.users && CheckCode(s.codes, req.accessCode, now).None?
  }

  function Register(s: Store, req: RegisterRequest, now: int, hash: string -> string): (r: (Outcome<Registered, RegisterError>, Store))
    ensures r.0.Rejected? ==> r.1 == s
    ensures !Truthy(req.name) || !Truthy(req.email) || !Truthy(req.password) ==> r.0 == Rejected(MissingFields)
    ensures Truthy(req.name) && Truthy(req.email) && Truthy(req.password) && |req.password.value| < MinPasswordLength ==>
      r.0 == Rejected(PasswordTooShort)
    ensures FieldsOk(req) && req.email.value in s.users ==> r.0 == Rejected(EmailTaken)
    ensures FieldsOk(req) && req.email.value !in s.users && CheckCode(s.codes, req.accessCode, now).Some? ==>
      r.0 == Rejected(BadCode(CheckCode(s.codes, req.accessCode, now).value))
    ensures r.0.Done? <==> Admissible(s, req, now)
    ensures r.0.Done? ==>
      var email, code, s' := req.email.value, req.accessCode.value, r.1;
      && r.0.value == Registered(s.nextId, email, req.name.value)
      // exactly one new user, a student holding the code
      && s'.users.Keys == s.users.Keys + {email}
      && s'.users[email] == User(s.nextId, email, req.name, Some(hash(req.password.value)), Student, Some(code), Some(now))
      && (forall e :: e in s.users ==> s'.users[e] == s.users[e])
      // the code, and only it, is consumed by this address
      && s'.codes.Keys == s.codes.Keys
      && s'.codes[code] == s.codes[code].(isUsed := true, usedBy := Some(email))
      && (forall c :: c in s.codes && c != code ==> s'.codes[c] == s.codes[c])
      // nothing else changes
      && s'.activities == s.activities && s'.submissions == s.submissions
      && s'.slots == s.slots && s'.feedback == s.feedback
      && s'.nextId == s.nextId + 1
  {
    if !Truthy(req.name) || !Truthy(req.email) || !Truthy(req.password) then (Rejected(MissingFields), s)
    else if |req.password.value| < MinPasswordLength then (Rejected(PasswordTooShort), s)
    else if req.email.value in s.users then (Rejected(EmailTaken), s)
    else
      match CheckCode(s.codes, req.accessCode, now)
      case Some(e) => (Rejected(BadCode(e)), s)
      case None =>
        var email, code := req.email.value, req.accessCode.value;
        var user := User(s.nextId, email, req.name, Some(hash(req.password.value)), Student, Some(code), Some(now));
        (Done(Registered(s.nextId, email, req.name.value)),
         s.(users := s.users[email := user], codes := Redeem(s.codes, code, email), nextId := s.nextId + 1))
  }

  /** A duplicate address is reported before the access code is looked at. */
  lemma EmailCheckedBeforeCode(s: Store, req: RegisterRequest, code: Option<string>, now: int, hash: string -> string)
    requires FieldsOk(req) && req.email.value in s.users
    ensures Register(s, req.(accessCode := code), now, hash).0 == Rejected(EmailTaken)
    ensures Register(s, req.(accessCode := code), now, hash).0.error.Status() == 409
  {
  }

  /** Registration keeps every store invariant. */
  lemma RegisterPreservesValid(s: Store, req: RegisterRequest, now: int, hash: string -> string)
    requires Valid(s)
    ensures Valid(Register(s, req, now, hash).1)
  {
    if Admissible(s, req, now) {
      var email, code := req.email.value, req.accessCode.value;
      var s' := Register(s, req, now, hash).1;
      RedeemKeepsLedger(s, code, email);
      forall e1, e2 | e1 in s'.users && e2 in s'.users && s'.users[e1].id == s'.users[e2].id
        ensures e1 == e2
      {
        if e1 != email && e2 != email {
          assert s.users[e1].id == s.users[e2].id;
        }
      }
    }
  }

  /** Once a registration has consumed a code, every later registration with
      that code (by an address not yet registered) fails as already used. */
  lemma SecondRegistrationFails(s: Store, first: RegisterRequest, second: RegisterRequest,
                                now1: int, now2: int, hash: string -> string)
    requires Register(s, first, now1, hash).0.Done?
    requires second.accessCode == first.accessCode
    requires FieldsOk(second) && second.email.value !in Register(s, first, now1, hash).1.users
    ensures Register(Register(s, first, now1, hash).1, second, now2, hash).0 == Rejected(BadCode(CodeUsed))
  {
  }

  /** The worked example: the unused, non-expiring code CLINICA2024 admits
      ana@example.com as a student and is then spent. */
  lemma ClinicaScenario(hash: string -> string, now: int)
    ensures var s := Empty.(codes := map["CLINICA2024" := AccessCode(false, None, None)]);
      var ana := RegisterRequest(Some("Ana"), Some("ana@example.com"), Some("secreto1"), Some("CLINICA2024"));
      var (r1, s1) := Register(s, ana, now, hash);
      && r1.Done?
      && s1.users["ana@example.com"].role == Student
      && s1.codes["CLINICA2024"] == AccessCode(true, Some("ana@example.com"), None)
      && Register(s1, ana.(email := Some("luis@example.com")), now, hash).0 == Rejected(BadCode(CodeUsed))
  {
  }

  // ------------------------------------------------------------ e-mail case

  /** The registration route stores the address exactly as typed, while the
      login route looks it up lower-cased: someone who registers with an
      upper-case letter in their address is then refused by the login route
      with the right password. */
  lemma MixedCaseRegistrantCannotLogIn(hash: string -> string, compare: Auth.Compare, now: int)
    requires compare("secreto1", hash("secreto1"))
    ensures var s := Empty.(codes := map["CLINICA2024" := AccessCode(false, None, None)]);
      var req := RegisterRequest(Some("Ana"), Some("Ana@example.com"), Some("secreto1"), Some("CLINICA2024"));
      var (r, s1) := Register(s, req, now, hash);
      && r.Done?
      && Auth.Login(s1, Auth.LoginRequest(Some("Ana@example.com"), Some("secreto1")), compare) ==
         Rejected(Auth.InvalidCredentials)
  {
    var s1 := Register(Empty.(codes := map["CLINICA2024" := AccessCode(false, None, None)]),
      RegisterRequest(Some("Ana"), Some("Ana@example.com"), Some("secreto1"), Some("CLINICA2024")), now, hash).1;
    assert s1.users.Keys == {"Ana@example.com"};
    assert ToLower("Ana@example.com")[0] == 'a';
  }

  function LowerField(o: Option<string>): Option<string>
  {
    match o
    case None => None
    case Some(v) => Some(ToLower(v))
  }

  /** Registration with the address normalised the way the login route
      normalises it; otherwise the same route. */
  function RegisterNormalized(s: Store, req: RegisterRequest, now: int, hash: string -> string): (r: (Outcome<Registered, RegisterError>, Store))
    ensures r.0.Done? ==>
      && req.email.Some? && r.0.value.email == ToLower(req.email.value) && r.0.value.email in r.1.users
      && forall i :: 0 <= i < |r.0.value.email| ==> !IsUpper(r.0.value.email[i])
  {
    Register(s, req.(email := LowerField(req.email)), now, hash)
  }

  /** With the address normalised, whoever registers can log in through the
      login route with the same address, in any case, and the same password. */
  lemma RegisterNormalizedThenLogin(s: Store, req: RegisterRequest, typed: string, now: int,
                                    hash: string -> string, compare: Auth.Compare)
    requires RegisterNormalized(s, req, now, hash).0.Done?
    requires ToLower(typed) == ToLower(req.email.value)
    requires compare(req.password.value, hash(req.password.value))
    ensures var s1 := RegisterNormalized(s, req, now, hash).1;
      var r := Auth.Login(s1, Auth.LoginRequest(Some(typed), req.password), compare);
      r.Done? && r.value.cookie.payload == Auth.TokenPayload(s.nextId, ToLower(typed), Student)
  {
    ToLowerIdempotent(req.email.value);
  }
}

=== FILE: server.dfy ===
/** The server as one state machine: each request, with the clock and the
    outside world's answers as inputs, takes the store to a new store and
    produces a reply. The store invariant holds across every step. */
module Server {
  import opened Common
  import opened Store
  import Auth
  import Registration
  import Submissions
  import FeedbackRoute
  import ActivityRoute
  import AccessCodes

  datatype Request =
    | Register(registration: Registration.RegisterRequest)
    | OAuthSignIn(provider: Option<string>, email: string, cookieCode: Option<string>)
    | Login(credentials: Auth.LoginRequest)
    | ListSubmissions(sessionEmail: Option<string>)
    | Submit(sessionEmail: Option<string>, recording: Submissions.SubmissionForm, upload: Submissions.UploadOutcome)
    | GiveFeedback(session: Option<Auth.SessionUser>, review: FeedbackRoute.FeedbackRequest)
    | CreateActivity(session: Option<Auth.SessionUser>, activity: ActivityRoute.ActivityRequest)
    | CreateCodes(caller: Option<Principal>, batch: AccessCodes.CodesRequest, year: nat, draws: seq<AccessCodes.Draw>)

  /** An HTTP status, or a redirect (the sign-in callback's refusals). */
  datatype Reply = Status(code: nat) | RedirectTo(location: string)

  /** Requests that only read. */
  predicate ReadOnly(req: Request)
  {
    req.Login? || req.ListSubmissions?
  }

  /** What each request does: the reply and the new store are those of the
      route the request names. */
  predicate RoutedAs(s: Store, req: Request, now: int, hash: string -> string, compare: Auth.Compare,
                     reply: Reply, s': Store)
  {
    && (req.Register? ==>
      var r := Registration.Register(s, req.registration, now, hash);
      s' == r.1 && reply == (if r.0.Done? then Status(201) else Status(r.0.error.Status())))
    && (req.OAuthSignIn? ==>
      var r := Auth.SignIn(s, req.provider, req.email, req.cookieCode, now);
      s' == r.1 && reply == (if r.0.Allow? then Status(200) else RedirectTo(Auth.ErrorPage(r.0.reason))))
    && (req.Login? ==>
      var r := Auth.Login(s, req.credentials, compare);
      reply == (if r.Done? then Status(200) else Status(r.error.Status())))
    && (req.ListSubmissions? ==>
      reply == (if !Truthy(req.sessionEmail) then Status(401)
                else if req.sessionEmail.value !in s.users then Status(404)
                else Status(200)))
    && (req.Submit? ==>
      var r := Submissions.PostSubmission(s, req.sessionEmail, req.recording, req.upload, now);
      s' == r.store && reply == (if r.outcome.Done? then Status(201) else Status(r.outcome.error.Status())))
    && (req.GiveFeedback? ==>
      var r := FeedbackRoute.PostFeedback(s, req.session, req.review, now);
      s' == r.1 && reply == (if r.0.Done? then Status(201) else Status(r.0.error.Status())))
    && (req.CreateActivity? ==>
      var r := ActivityRoute.PostActivity(s, req.session, req.activity);
      s' == r.1 && reply == (if r.0.Done? then Status(201) else Status(r.0.error.Status())))
    && (req.CreateCodes? ==>
      && s' == s.(codes := s'.codes)
      && (forall c :: c in s.codes ==> c in s'.codes && s'.codes[c] == s.codes[c])
      && (req.caller.None? || req.caller.value.role != TEACHER ==> reply == Status(401) && s' == s)
      && (reply == Status(201) ==> |s'.codes| == |s.codes| + AccessCodes.EffectiveCount(req.batch.count)))
  }

  method Step(s: Store, req: Request, now: int, hash: string -> string, compare: Auth.Compare)
    returns (reply: Reply, s': Store)
    ensures Valid(s) ==> Valid(s')
    ensures ReadOnly(req) ==> s' == s
    ensures reply.Status? ==> reply.code in {200, 201, 400, 401, 404, 409, 500}
    ensures reply.RedirectTo? ==> req.OAuthSignIn? && s' == s
    ensures RoutedAs(s, req, now, hash, compare, reply, s')
  {
    match req
    case Register(form) =>
      var (r, next) := Registration.Register(s, form, now, hash);
      if Valid(s) { Registration.RegisterPreservesValid(s, form, now, hash); }
      reply := if r.Done? then Status(201) else Status(r.error.Status());
      s' := next;
    case OAuthSignIn(provider, email, cookieCode) =>
      var (r, next) := Auth.SignIn(s, provider, email, cookieCode, now);
      if Valid(s) { Auth.SignInPreservesValid(s, provider, email, cookieCode, now); }
      reply := if r.Allow? then Status(200) else RedirectTo(Auth.ErrorPage(r.reason));
      s' := next;
    case Login(body) =>
      var r := Auth.Login(s, body, compare);
      reply := if r.Done? then Status(200) else Status(r.error.Status());
      s' := s;
    case ListSubmissions(email) =>
      var r := Submissions.ListSubmissions(s, email);
      reply := if r.Done? then Status(200) else Status(r.error.Status());
      s' := s;
    case Submit(email, form, upload) =>
      var r := Submissions.PostSubmission(s, email, form, upload, now);
      if Valid(s) { Submissions.PostSubmissionPreservesValid(s, email, form, upload, now); }
      reply := if r.outcome.Done? then Status(201) else Status(r.outcome.error.Status());
      s' := r.store;
    case GiveFeedback(session, body) =>
      var (r, next) := FeedbackRoute.PostFeedback(s, session, body, now);
      if Valid(s) { FeedbackRoute.PostFeedbackPreservesValid(s, session, body, now); }
      reply := if r.Done? then Status(201) else Status(r.error.Status());
      s' := next;
    case CreateActivity(session, body) =>
      var (r, next) := ActivityRoute.PostActivity(s, session, body);
      if Valid(s) { ActivityRoute.PostActivityPreservesValid(s, session, body); }
      reply := if r.Done? then Status(201) else Status(r.error.Status());
      s' := next;
    case CreateCodes(caller, body, year, draws) =>
      var r, next := AccessCodes.CreateAccessCodes(s, caller, body, now, year, draws);
      if Valid(s) && r.Done? {
        AccessCodes.NewCodesKeepLedger(s, next, r.value, AccessCodes.SharedExpiry(body.expirationDays, now));
      }
      reply := if r.Done? then Status(201) else Status(r.error.Status());
      s' := next;
  }

  /** Runs a sequence of requests at the given instants. */
  method Run(s: Store, reqs: seq<Request>, times: seq<int>, hash: string -> string, compare: Auth.Compare)
    returns (replies: seq<Reply>, s': Store)
    requires |times| == |reqs|
    ensures |replies| == |reqs|
    ensures Valid(s) ==> Valid(s')
  {
    replies := [];
    s' := s;
    var i := 0;
    while i < |reqs|
      invariant 0 <= i <= |reqs|
      invariant |replies| == i
      invariant Valid(s) ==> Valid(s')
    {
      var reply;
      reply, s' := Step(s', reqs[i], times[i], hash, compare);
      replies := replies + [reply];
      i := i + 1;
    }
  }
}

=== FILE: store.dfy ===
/** The persisted state of the application as one immutable value: the five
    tables the route handlers read and write, plus the counter that stands in
    for the database's identifier generation. */
module Store {
  import opened Common

  /** Row identifiers. The database generates them; here they come from `nextId`. */
  type Id = nat

  /** A user row. `password` holds the hash; OAuth users have none. */
  datatype User = User(
    id: Id,
    email: string,
    name: Option<string>,
    password: Option<string>,
    role: Role,
    accessCode: Option<string>,
    emailVerified: Option<int>)

  /** An enrollment code row; the code string itself is the table key. */
  datatype AccessCode = AccessCode(isUsed: bool, usedBy: Option<string>, expiresAt: Option<int>)

  /** One entry of an activity's cultural-hint list. */
  datatype Hint = Hint(category: string, content: string)

  datatype Activity = Activity(
    title: string,
    description: Option<string>,
    kind: string,
    content: string,
    instructions: Option<string>,
    dueDate: Option<string>,
    isPublished: bool,
    culturalHints: Option<seq<Hint>>,
    createdBy: Id)

  datatype Status = Pending | Reviewed | NeedsRevision

  datatype Submission = Submission(
    studentId: Id,
    activityId: Id,
    mediaUrl: string,
    mediaType: string,
    notes: Option<string>,
    status: Status,
    createdAt: int,
    updatedAt: int)

  datatype Feedback = Feedback(
    submissionId: Id,
    teacherId: Id,
    comment: string,
    pronunciation: Option<int>,
    fluency: Option<int>,
    culturalUse: Option<int>,
    createdAt: int)

  /** The key of the unique index on submissions: one row per student and activity. */
  datatype Slot = Slot(studentId: Id, activityId: Id)

  function SlotOf(sub: Submission): Slot
  {
    Slot(sub.studentId, sub.activityId)
  }

  datatype Store = Store(
    users: map<string, User>,
    codes: map<string, AccessCode>,
    activities: map<Id, Activity>,
    submissions: map<Id, Submission>,
    slots: map<Slot, Id>,
    feedback: map<Id, Feedback>,
    nextId: Id)

  const Empty: Store := Store(map[], map[], map[], map[], map[], map[], 0)

  /** Users are keyed by their (unique) e-mail and carry distinct ids. */
  ghost predicate UsersValid(s: Store)
  {
    && (forall e :: e in s.users ==> s.users[e].email == e && s.users[e].id < s.nextId)
    && (forall e1, e2 :: e1 in s.users && e2 in s.users && s.users[e1].id == s.users[e2].id ==> e1 == e2)
  }

  /** The access-code ledger: a code is used exactly when it records who used
      it, and every user holding a code is the one that code records. */
  ghost predicate LedgerValid(s: Store)
  {
    && (forall c :: c in s.codes ==> (s.codes[c].isUsed <==> s.codes[c].usedBy.Some?))
    && (forall e :: e in s.users && s.users[e].accessCode.Some? ==>
          s.users[e].accessCode.value in s.codes &&
          s.codes[s.users[e].accessCode.value].usedBy == Some(e))
  }

  /** The unique index and the submissions table describe each other. */
  ghost predicate SlotsValid(s: Store)
  {
    && (forall i :: i in s.submissions ==>
          SlotOf(s.submissions[i]) in s.slots && s.slots[SlotOf(s.submissions[i])] == i)
    && (forall k :: k in s.slots ==>
          s.slots[k] in s.submissions && SlotOf(s.submissions[s.slots[k]]) == k)
  }

  /** Ids are below the counter, and references between rows resolve. */
  ghost predicate RowsValid(s: Store)
  {
    && (forall a :: a in s.activities ==> a < s.nextId)
    && (forall i :: i in s.submissions ==> i < s.nextId && s.submissions[i].activityId in s.activities)
    && (forall f :: f in s.feedback ==> f < s.nextId && s.feedback[f].submissionId in s.submissions)
  }

  ghost predicate Valid(s: Store)
  {
    UsersValid(s) && LedgerValid(s) && SlotsValid(s) && RowsValid(s)
  }

  lemma EmptyValid()
    ensures Valid(Empty)
  {
  }

  /** The unique index really is unique: no two submissions share a slot. */
  lemma SlotUnique(s: Store, i: Id, j: Id)
    requires SlotsValid(s)
    requires i in s.submissions && j in s.submissions
    requires SlotOf(s.submissions[i]) == SlotOf(s.submissions[j])
    ensures i == j
  {
  }

  /** No access code is held by two different users. */
  lemma CodeHeldByOneUser(s: Store, e1: string, e2: string)
    requires LedgerValid(s)
    requires e1 in s.users && e2 in s.users
    requires s.users[e1].accessCode.Some? && s.users[e1].accessCode == s.users[e2].accessCode
    ensures e1 == e2
  {
  }
}

=== FILE: submissions.dfy ===
/** The submissions route (src/app/api/submissions/route.ts): listing a
    user's submissions newest first, and creating or replacing the one
    submission a student has for an activity after handing the recording to
    the media host. The media host's answer is an input of the handler. */
module Submissions {
  import opened Common
  import opened Store

  // ------------------------------------------------------------- media kinds

  const VideoPrefix: string := "video/"

  /** How the media host is told to treat the upload. */
  datatype ResourceType = VideoResource | AutoResource

  function ResourceTypeOf(mimeType: string): ResourceType
  {
    if VideoPrefix <= mimeType then VideoResource else AutoResource
  }

  /** The stored media kind: the form's own value if it sent a non-empty one,
      otherwise derived from the file's MIME type. */
  function MediaTypeOf(requested: Option<string>, mimeType: string): (kind: string)
    ensures Truthy(requested) ==> kind == requested.value
    ensures !Truthy(requested) ==> (kind == "video" <==> VideoPrefix <= mimeType)
    ensures !Truthy(requested) ==> kind in {"video", "audio"}
  {
    if Truthy(requested) then requested.value
    else if VideoPrefix <= mimeType then "video" else "audio"
  }

  /** Without a requested kind, the stored kind and the upload's resource type
      agree: a video is uploaded as video and stored as video, anything else
      is uploaded with automatic detection and stored as audio. */
  lemma MediaAgreesWithResource(mimeType: string)
    ensures MediaTypeOf(None, mimeType) == "video" <==> ResourceTypeOf(mimeType) == VideoResource
    ensures MediaTypeOf(None, mimeType) == "audio" <==> ResourceTypeOf(mimeType) == AutoResource
  {
  }

  // ------------------------------------------------------------------ upsert

  /** Writes a submission into `(student, activity)`'s slot: the existing row
      is overwritten in place, or a new row is created. */
  function Upsert(s: Store, student: Id, activity: Id, url: string, mediaType: string, notes: Option<string>, now: int): (s': Store)
    ensures s'.users == s.users && s'.codes == s.codes && s'.activities == s.activities && s'.feedback == s.feedback
    ensures Slot(student, activity) in s'.slots && s'.slots[Slot(student, activity)] in s'.submissions
    ensures var sub := s'.submissions[s'.slots[Slot(student, activity)]];
      && sub.mediaUrl == url && sub.mediaType == mediaType && sub.notes == notes
      && sub.status == Pending && sub.updatedAt == now
  {
    var slot := Slot(student, activity);
    if slot in s.slots && s.slots[slot] in s.submissions then
      var id := s.slots[slot];
      var prev := s.submissions[id];
      s.(submissions := s.submissions[id := prev.(mediaUrl := url, mediaType := mediaType, notes := notes, status := Pending, updatedAt := now)])
    else
      var sub := Submission(student, activity, url, mediaType, notes, Pending, now, now);
      s.(submissions := s.submissions[s.nextId := sub], slots := s.slots[slot := s.nextId], nextId := s.nextId + 1)
  }

  /** On a consistent store, a resubmission to an occupied slot changes that
      row's media, notes and status and nothing else: no row is added, the
      creation time is kept, every other row is as before. */
  lemma UpsertOverwrites(s: Store, student: Id, activity: Id, url: string, mediaType: string, notes: Option<string>, now: int)
    requires SlotsValid(s)
    requires Slot(student, activity) in s.slots
    ensures var s' := Upsert(s, student, activity, url, mediaType, notes, now);
      var id := s.slots[Slot(student, activity)];
      && s'.slots == s.slots && s'.nextId == s.nextId
      && s'.submissions.Keys == s.submissions.Keys
      && s'.submissions[id] == s.submissions[id].(mediaUrl := url, mediaType := mediaType, notes := notes, status := Pending, updatedAt := now)
      && (forall j :: j in s.submissions && j != id ==> s'.submissions[j] == s.submissions[j])
  {
  }

  /** On a consistent store, the first submission to a slot adds exactly one row. */
  lemma UpsertCreates(s: Store, student: Id, activity: Id, url: string, mediaType: string, notes: Option<string>, now: int)
    requires SlotsValid(s) && RowsValid(s)
    requires Slot(student, activity) !in s.slots
    ensures var s' := Upsert(s, student, activity, url, mediaType, notes, now);
      && s.nextId !in s.submissions
      && s'.submissions == s.submissions[s.nextId := Submission(student, activity, url, mediaType, notes, Pending, now, now)]
      && s'.slots == s.slots[Slot(student, activity) := s.nextId]
  {
  }

  /** Upserting keeps the unique index consistent, so there is never more than
      one submission per student and activity. */
  lemma UpsertPreservesValid(s: Store, student: Id, activity: Id, url: string, mediaType: string, notes: Option<string>, now: int)
    requires Valid(s)
    requires activity in s.activities
    ensures Valid(Upsert(s, student, activity, url, mediaType, notes, now))
  {
    var slot := Slot(student, activity);
    var s' := Upsert(s, student, activity, url, mediaType, notes, now);
    if slot !in s.slots {
      assert s.nextId !in s.submissions;
      forall k | k in s'.slots
        ensures s'.slots[k] in s'.submissions && SlotOf(s'.submissions[s'.slots[k]]) == k
      {
        if k != slot {
          assert s.slots[k] in s.submissions;
          assert s.slots[k] != s.nextId;
        }
      }
    }
  }

  // -------------------------------------------------------------------- POST

  datatype MediaFile = MediaFile(mimeType: string)

  /** The multipart form. An empty activity id is folded into `None`. */
  datatype SubmissionForm = SubmissionForm(
    file: Option<MediaFile>,
    activityId: Option<Id>,
    notes: Option<string>,
    mediaType: Option<string>)

  /** What the media host did with the upload: threw, or answered with a
      result that may lack a secure URL. */
  datatype UploadOutcome = UploadThrew | UploadAnswered(secureUrl: Option<string>)

  /** The upload the route asks the media host for. */
  datatype UploadRequest = UploadRequest(resourceType: ResourceType, folder: string, student: Id, activity: Id, at: int)

  datatype SubmissionError =
    | Unauthorized | UserNotFound | NoFile | NoActivityId | ActivityNotFound
    | UploadFailed      // the host answered without a URL
    | CreateFailed      // the host threw; the route's catch-all
  {
    function Status(): nat
    {
      match this
      case Unauthorized => 401
      case UserNotFound => 404
      case NoFile => 400
      case NoActivityId => 400
      case ActivityNotFound => 404
      case UploadFailed => 500
      case CreateFailed => 500
    }
  }

  /** The route's answer, the upload it attempted (if any), and the new store. */
  datatype PostResult = PostResult(outcome: Outcome<Id, SubmissionError>, upload: Option<UploadRequest>, store: Store)

  /** The checks that run before anything is sent to the media host. */
  function Precheck(s: Store, sessionEmail: Option<string>, form: SubmissionForm): Option<SubmissionError>
  {
    if !Truthy(sessionEmail) then Some(Unauthorized)
    else if sessionEmail.value !in s.users then Some(UserNotFound)
    else if form.file.None? then Some(NoFile)
    else if form.activityId.None? then Some(NoActivityId)
    else if form.activityId.value !in s.activities then Some(ActivityNotFound)
    else None
  }

  function PostSubmission(s: Store, sessionEmail: Option<string>, form: SubmissionForm, upload: UploadOutcome, now: int): (r: PostResult)
    ensures r.outcome.Rejected? ==> r.store == s
    ensures Precheck(s, sessionEmail, form).Some? ==>
      r.outcome == Rejected(Precheck(s, sessionEmail, form).value) && r.upload.None?
    ensures Precheck(s, sessionEmail, form).None? ==>
      && r.upload.Some?
      && r.upload.value.resourceType == ResourceTypeOf(form.file.value.mimeType)
      && r.upload.value.student == s.users[sessionEmail.value].id
      && r.upload.value.activity == form.activityId.value
    ensures Precheck(s, sessionEmail, form).None? && upload.UploadThrew? ==> r.outcome == Rejected(CreateFailed)
    ensures Precheck(s, sessionEmail, form).None? && upload.UploadAnswered? && !Truthy(upload.secureUrl) ==>
      r.outcome == Rejected(UploadFailed)
    ensures r.outcome.Done? <==>
      Precheck(s, sessionEmail, form).None? && upload.UploadAnswered? && Truthy(upload.secureUrl)
    ensures r.outcome.Done? ==>
      var student, activity := s.users[sessionEmail.value].id, form.activityId.value;
      && r.store == Upsert(s, student, activity, upload.secureUrl.value,
                           MediaTypeOf(form.mediaType, form.file.value.mimeType), form.notes, now)
      && r.outcome.value == r.store.slots[Slot(student, activity)]
  {
    match Precheck(s, sessionEmail, form)
    case Some(e) => PostResult(Rejected(e), None, s)
    case None =>
      var user := s.users[sessionEmail.value];
      var file, activity := form.file.value, form.activityId.value;
      var request := UploadRequest(ResourceTypeOf(file.mimeType), "clinica-clm/submissions", user.id, activity, now);
      match upload
      case UploadThrew => PostResult(Rejected(CreateFailed), Some(request), s)
      case UploadAnswered(url) =>
        if !Truthy(url) then PostResult(Rejected(UploadFailed), Some(request), s)
        else
          var s' := Upsert(s, user.id, activity, url.value, MediaTypeOf(form.mediaType, file.mimeType), form.notes, now);
          PostResult(Done(s'.slots[Slot(user.id, activity)]), Some(request), s')
  }

  /** Whatever the media host would answer, a request that fails a check gets
      the same answer: the checks all run before the upload. */
  lemma ChecksPrecedeUpload(s: Store, sessionEmail: Option<string>, form: SubmissionForm, u1: UploadOutcome, u2: UploadOutcome, now: int)
    requires Precheck(s, sessionEmail, form).Some?
    ensures PostSubmission(s, sessionEmail, form, u1, now) == PostSubmission(s, sessionEmail, form, u2, now)
  {
  }

  /** Creating a submission keeps every store invariant. */
  lemma PostSubmissionPreservesValid(s: Store, sessionEmail: Option<string>, form: SubmissionForm, upload: UploadOutcome, now: int)
    requires Valid(s)
    ensures Valid(PostSubmission(s, sessionEmail, form, upload, now).store)
  {
    var r := PostSubmission(s, sessionEmail, form, upload, now);
    if r.outcome.Done? {
      UpsertPreservesValid(s, s.users[sessionEmail.value].id, form.activityId.value, upload.secureUrl.value,
        MediaTypeOf(form.mediaType, form.file.value.mimeType), form.notes, now);
    }
  }

  /** Two successful submissions by the same student for the same activity
      land in the same row: the second replaces the first's recording. */
  lemma ResubmissionReplaces(s: Store, sessionEmail: Option<string>, f1: SubmissionForm, f2: SubmissionForm,
                             u1: UploadOutcome, u2: UploadOutcome, t1: int, t2: int)
    requires Valid(s)
    requires PostSubmission(s, sessionEmail, f1, u1, t1).outcome.Done?
    requires f2.activityId == f1.activityId
    requires PostSubmission(PostSubmission(s, sessionEmail, f1, u1, t1).store, sessionEmail, f2, u2, t2).outcome.Done?
    ensures var r1 := PostSubmission(s, sessionEmail, f1, u1, t1);
      var r2 := PostSubmission(r1.store, sessionEmail, f2, u2, t2);
      && r2.outcome.value == r1.outcome.value
      && r2.store.submissions.Keys == r1.store.submissions.Keys
      && r2.store.submissions[r2.outcome.value].mediaUrl == u2.secureUrl.value
      && r2.store.submissions[r2.outcome.value].status == Pending
  {
    var r1 := PostSubmission(s, sessionEmail, f1, u1, t1);
    PostSubmissionPreservesValid(s, sessionEmail, f1, u1, t1);
    var student, activity := s.users[sessionEmail.value].id, f1.activityId.value;
    UpsertOverwrites(r1.store, student, activity, u2.secureUrl.value,
      MediaTypeOf(f2.mediaType, f2.file.value.mimeType), f2.notes, t2);
  }

  // --------------------------------------------------------------------- GET

  datatype ListError = ListUnauthorized | ListUserNotFound
  {
    function Status(): nat
    {
      if ListUnauthorized? then 401 else 404
    }
  }

  /** The rows a user may list: all of them for a teacher, their own otherwise. */
  function VisibleTo(s: Store, user: User): (ids: set<Id>)
    ensures ids <= s.submissions.Keys
    ensures user.role == Teacher ==> ids == s.submissions.Keys
    ensures user.role == Student ==> forall i :: i in ids <==> i in s.submissions && s.submissions[i].studentId == user.id
  {
    set i | i in s.submissions && (user.role == Teacher || s.submissions[i].studentId == user.id)
  }

  ghost predicate AllIn(subs: map<Id, Submission>, xs: seq<Id>)
  {
    forall i :: 0 <= i < |xs| ==> xs[i] in subs
  }

  /** Newest first. */
  ghost predicate NewestFirst(subs: map<Id, Submission>, xs: seq<Id>)
    requires AllIn(subs, xs)
  {
    forall i, j :: 0 <= i < j < |xs| ==> subs[xs[i]].createdAt >= subs[xs[j]].createdAt
  }

  /** Inserts `x` into a newest-first list at its place. */
  function InsertByDate(subs: map<Id, Submission>, xs: seq<Id>, x: Id): (r: seq<Id>)
    requires x in subs && AllIn(subs, xs) && NewestFirst(subs, xs)
    ensures AllIn(subs, r) && NewestFirst(subs, r)
    ensures multiset(r) == multiset(xs) + multiset{x}
    decreases |xs|
  {
    if |xs| == 0 then [x]
    else if subs[x].createdAt >= subs[xs[0]].createdAt then [x] + xs
    else
      var rest := InsertByDate(subs, xs[1..], x);
      ConsKeepsNewestFirst(subs, xs, x, rest);
      [xs[0]] + rest
  }

  /** The step of `InsertByDate` that keeps the head: `x` is older than the
      head, so the head is at least as new as everything in the rest. */
  lemma ConsKeepsNewestFirst(subs: map<Id, Submission>, xs: seq<Id>, x: Id, rest: seq<Id>)
    requires x in subs && |xs| > 0 && AllIn(subs, xs) && NewestFirst(subs, xs)
    requires subs[x].createdAt < subs[xs[0]].createdAt
    requires AllIn(subs, rest) && NewestFirst(subs, rest)
    requires multiset(rest) == multiset(xs[1..]) + multiset{x}
    ensures AllIn(subs, [xs[0]] + rest) && NewestFirst(subs, [xs[0]] + rest)
    ensures multiset([xs[0]] + rest) == multiset(xs) + multiset{x}
  {
    var r := [xs[0]] + rest;
    forall k | 0 <= k < |rest| ensures subs[xs[0]].createdAt >= subs[rest[k]].createdAt {
      assert rest[k] in multiset(rest);
      if rest[k] != x {
        assert rest[k] in multiset(xs[1..]);
        var m :| 0 <= m < |xs[1..]| && xs[1..][m] == rest[k];
        assert xs[m + 1] == rest[k];
      }
    }
    forall i, j | 0 <= i < j < |r| ensures subs[r[i]].createdAt >= subs[r[j]].createdAt {
      if i > 0 {
        assert r[i] == rest[i - 1] && r[j] == rest[j - 1];
      } else {
        assert r[j] == rest[j - 1];
      }
    }
    assert xs == [xs[0]] + xs[1..];
  }

  /** Orders a set of rows newest first. */
  method OrderNewestFirst(subs: map<Id, Submission>, ids: set<Id>) returns (r: seq<Id>)
    requires ids <= subs.Keys
    ensures AllIn(subs, r) && NewestFirst(subs, r)
    ensures multiset(r) == multiset(ids)
  {
    r := [];
    var rest := ids;
    while rest != {}
      invariant rest <= ids
      invariant AllIn(subs, r) && NewestFirst(subs, r)
      invariant multiset(r) + multiset(rest) == multiset(ids)
      decreases rest
    {
      var x :| x in rest;
      r := InsertByDate(subs, r, x);
      assert multiset(rest) == multiset(rest - {x}) + multiset{x};
      rest := rest - {x};
    }
  }

  /** GET: the caller's visible submissions, newest first, each exactly once. */
  method ListSubmissions(s: Store, sessionEmail: Option<string>) returns (r: Outcome<seq<Id>, ListError>)
    ensures !Truthy(sessionEmail) ==> r == Rejected(ListUnauthorized)
    ensures Truthy(sessionEmail) && sessionEmail.value !in s.users ==> r == Rejected(ListUserNotFound)
    ensures Truthy(sessionEmail) && sessionEmail.value in s.users ==> r.Done?
    ensures r.Done? ==>
      && Truthy(sessionEmail) && sessionEmail.value in s.users
      && AllIn(s.submissions, r.value) && NewestFirst(s.submissions, r.value)
      && multiset(r.value) == multiset(VisibleTo(s, s.users[sessionEmail.value]))
  {
    if !Truthy(sessionEmail) {
      return Rejected(ListUnauthorized);
    }
    if sessionEmail.value !in s.users {
      return Rejected(ListUserNotFound);
    }
    var ids := OrderNewestFirst(s.submissions, VisibleTo(s, s.users[sessionEmail.value]));
    return Done(ids);
  }

  /** A listed sequence holds each visible row once and nothing else. */
  lemma ListingIsExact(ids: seq<Id>, visible: set<Id>)
    requires multiset(ids) == multiset(visible)
    ensures forall i :: i in ids <==> i in visible
    ensures forall i, j :: 0 <= i < j < |ids| ==> ids[i] != ids[j]
  {
    forall i | i in ids ensures i in visible {
      assert i in multiset(ids);
    }
    forall i | i in visible ensures i in ids {
      assert i in multiset(visible);
    }
    forall i, j | 0 <= i < j < |ids| ensures ids[i] != ids[j] {
      if ids[i] == ids[j] {
        RepeatCountsTwice(ids, i, j);
      }
    }
  }

  /** An element found at two positions occurs at least twice. */
  lemma RepeatCountsTwice(xs: seq<Id>, i: nat, j: nat)
    requires i < j < |xs| && xs[i] == xs[j]
    ensures multiset(xs)[xs[i]] >= 2
  {
    assert xs == xs[..i] + [xs[i]] + xs[i+1..j] + [xs[j]] + xs[j+1..];
  }
}
